=== FILE: README.md ===
# DartScores 501 scoring engine in Dafny

This project models the 501 scoring engine of the DartScores darts server and
proves properties of the model. It covers the engine itself
(`ScoringEngine` in app/services/scoring_engine.py), the model-class helpers
the engine relies on (turns, throws, legs and matches), and the checks the
match routes make before they call it.

The engine works on a leg. A leg holds its turns, and each turn holds up to
three throws. `process_throw` sends a dart to a turn:
- It adds the dart to the unfinished turn with the highest turn number, when
  that turn belongs to the thrower.
- Otherwise it opens a new turn, whose remaining score is recomputed from the
  player's non-bust turns.
- It then scores the dart, decides whether it busts, and commits.

`undo_last_throw` removes the throw with the highest dart number from that
same turn.

The modules follow the source files:

| module | file | form |
|---|---|---|
| `Wrappers` | — | `Option`, `Result`, sequence helpers |
| `ThrowModel` | app/models/throw.py | `Throw` datatype, point rule, last-throw lookup |
| `TurnModel` | app/models/turn.py | `Turn` datatype, turn lookups, the well-formedness invariant |
| `MatchModel` | app/models/match.py | enums, `PlayerMatch` rows, class `Match`, match queries |
| `LegModel` | app/models/leg.py | class `Leg` (status, winner, end time and turns change in place), leg queries |
| `ScoringEngine` | app/services/scoring_engine.py | rule functions, plus each engine operation as a method over a `Leg` proved equal to a specification function |
| `EngineProperties` | app/services/scoring_engine.py | lemmas about those specification functions |
| `MatchRoutes` | app/routes/matches.py | request checks and replies; `RecordThrow` and `CreateMatch` as methods |

## How the model represents the data

- A leg's turns are a `seq<Turn>` field of the `Leg` object, in insertion
  order. Each turn's throws are a `seq<Throw>` inside the turn.
- The identity of a turn or throw row is its position. The foreign keys
  `leg_id` and `turn_id` are implicit in this nesting.
- A database query becomes a function over these sequences.
- A commit becomes one assignment of the leg's state.
- The routes' rollback on an exception becomes "on failure nothing changes".
- Timestamps are an `Option<int>`, and the clock is a `now` parameter.
- Keys the database assigns (a new leg's or match's id) are parameters.
- Which players exist is a `set<int>` of registered ids.

## Behaviour of the code as written

The model follows the code. Several points differ from the rules of 501 as
players know them:

- **Reaching zero is a bust.** The engine's bust test at
  app/services/scoring_engine.py:163 is `new_remaining < 2 or …`. A dart that
  brings the score to exactly 0 is therefore a bust, even on a double.
  - The checkout branch at lines 194-213 can never be entered.
  - No throw is ever a checkout, and no game is ever reported completed.
  - `ApplyDart` keeps that branch as an assertion that it is unreachable.
  - `EngineProperties.CheckoutDartBusts` shows that every valid checkout busts.
  - `EngineProperties.DartRules` shows that no throw reports a checkout.
  - `EngineProperties.ThrowKeepsWellFormed` shows that no turn becomes one.
- **A bust turn stays open.** A bust does not finish the turn. Later darts
  from the same player are still added to it, and they are scored against
  the turn's remaining score. `get_current_game_state` treats a bust turn as
  over and already names the next player (`EngineProperties.BustTurnStaysOpen`).
- **A bust zeroes the whole turn.** Its score becomes 0, and undoing the
  bust does not bring the earlier darts' points back
  (`EngineProperties.BustThenUndoLosesScore`).
- **The leg's status is never checked.** `process_throw` accepts darts for a
  completed leg too.
- **Undo double-counts on a deleted turn.** When undo deletes a turn (its
  only dart was removed) after a non-bust dart, the reply's remaining score
  adds the dart's points a second time; after a bust dart it adds them once (`EngineProperties.UndoDoubleCountsDeletedTurn`,
  `EngineProperties.ThrowThenUndo`).
- **A completed turn cannot be undone.** Undo only looks at turns with fewer
  than three darts, so the third dart of a turn can never be undone
  (`EngineProperties.ThirdDartIsFinal`).
- **Forcing the next player can hand back the throw.**
  - `next_player` starts from the player the game state names. After a
    closed or bust turn, that is already the next player.
  - So in a two-player match it names the player whose turn just ended
    (`MatchRoutes.ForcedMoveAfterClosedTurnReturns`).
- **JSON booleans count as integers.** The routes accept `true` and `false`
  wherever an integer is checked, because Python's `bool` is an `int`
  (`MatchRoutes.BooleansPassAsIntegers`).
- **Bull scores 50 for any multiplier other than 1.** This includes bull with
  multiplier 0 or 3. `calculate_points` and `Throw.create_for_turn` agree on
  this (`EngineProperties.PointRulesAgree`).
- **An empty `player_ids` list leaves a match behind.** `create_match` commits
  the match before `player_ids[0]` raises, so a match without players
  remains even though the reply is 500.
- **Throw and undo are round trips only in part.** Undo restores the turns
  when all of these hold (`EngineProperties.ThrowThenUndo`):
  - the dart did not bust;
  - it left its turn unfinished;
  - it carried the turn's highest dart number.

  These conditions are enough, not necessary: other darts, such as a bust
  dart that opened a new turn, can be undone exactly too.

The invariant `TurnModel.WellFormed` holds for every leg the engine builds.
It says that:
- turn numbers are positive and strictly increasing in insertion order;
- each turn has 1 to 3 valid throws with distinct dart numbers;
- each turn's dart counter matches its throws;
- no turn is flagged as a checkout.

Under this invariant, ordering turns by turn number agrees with insertion
order. Ties in the source's `ORDER BY … DESC LIMIT 1` lookups then do not
arise, and the model settles them in favour of the later row anyway.

## Model

| member | source | states |
|---|---|---|
| Wrappers.IndexOf | app/routes/matches.py:231 | `list.index`: absent exactly when the element is not in the list; otherwise the first position holding it |
| Wrappers.RemoveAt | app/services/scoring_engine.py:272 | deleting one row keeps the other rows in order and shortens the sequence by one |
| ThrowModel.CreateForTurn | app/models/throw.py:41-60 | stores the dart's number, segment and multiplier, clears both flags, and scores a miss 0 and a dart in range at most 60 |
| ThrowModel.LastThrowForTurn | app/models/throw.py:63-65 | none exactly for a turn without throws; otherwise a throw with the highest dart number |
| TurnModel.NewTurn | app/models/turn.py:26-36 | a missing score, dart count or flag defaults to 0 or false; given values are kept |
| TurnModel.CreateForLeg | app/models/turn.py:58-68 | a new turn has the given player, number and remaining score, score 0, no darts, no flags and no throws |
| TurnModel.Highest | app/models/turn.py:86-101 | none exactly when no turn qualifies; otherwise a qualifying turn whose number is at least that of every qualifying turn |
| TurnModel.LastTurnForLeg | app/models/turn.py:94-101 | the unfinished turn with the highest turn number, or none when every turn has three darts; flags are ignored |
| TurnModel.NextTurnNumber | app/models/turn.py:86-91 | 1 for a leg without turns; otherwise one more than the highest turn number, so above every turn number |
| TurnModel.LastTurnIsLastUnfinished | app/models/turn.py:94-101 | in a well-formed leg no unfinished turn follows the one the lookup finds |
| TurnModel.LatestTurnIsLast | app/models/turn.py:86-91 | in a well-formed leg the highest-numbered turn is the last one |
| MatchModel.EnumStringsRoundTrip | app/models/match.py:8-34 | each game type, match status and leg status converts to its string and back, and each string parses back to itself |
| MatchModel.InsertByOrder | app/routes/matches.py:223 | inserting a row into rows sorted by `player_order` keeps them sorted and adds exactly that row |
| MatchModel.SortByOrder | app/routes/matches.py:223 | `sorted(player_matches, key=player_order)`: a sorted permutation of the rows |
| MatchModel.SortKeepsNumberedRows | app/models/match.py:82-84 | rows numbered 1, 2, … in insertion order are already in `player_order` order |
| MatchModel.PlayerIdsOf | app/routes/matches.py:223 | the player ids of the rows, position by position |
| MatchModel.PermutedRowsKeepIds | app/services/scoring_engine.py:363 | rows that are permutations of each other carry the same player ids, each as often |
| MatchModel.SortedIdsFollowOrder | app/services/scoring_engine.py:363 | the rotation is the rows' player ids position by position after sorting by `player_order`, and holds each player id of the match as often as it has rows |
| MatchModel.NumberedRowsRotation | app/models/match.py:82-84 | rows numbered 1, 2, … in the order of a list of ids give that list as the rotation |
| MatchModel.Match.Create501 | app/models/match.py:76-87 | an active 501 match without end time; its rows number the given players 1, 2, … in order, so its player rotation is the given list |
| MatchModel.Match.OrderedPlayerIds | app/services/scoring_engine.py:362-363 | one id per player row |
| MatchModel.Match.Complete | app/models/match.py:69-73 | the status becomes completed and the end time is stamped |
| MatchModel.GetMatchById | app/models/match.py:95-97 | none exactly when no match has that id; otherwise a stored match with that id |
| MatchModel.ActiveMatches | app/models/match.py:90-92 | exactly the stored matches whose status is active |
| LegModel.Leg.CreateForMatch | app/models/leg.py:53-62 | a new leg of the match, with the given number and starting player, active, with no winner, end time or turns |
| LegModel.Leg.Complete | app/models/leg.py:45-50 | status completed, the given winner and the end time stamped |
| LegModel.GetLegById | app/models/leg.py:73-75 | none exactly when no leg has that id; otherwise a stored leg with that id |
| LegModel.CountLegsOfMatch | app/services/scoring_engine.py:325 | the number of stored legs whose match id is the match's, i.e. how often that id occurs among the legs' match ids; so zero exactly when the match has no legs |
| LegModel.ActiveLegsForMatch | app/models/leg.py:65-70 | exactly the stored legs of the match whose status is active |
| LegModel.LastActiveLegIsStoredLast | app/models/leg.py:65-70 | the last leg listed is the active leg of the match stored last |
| ScoringEngine.CalculatePoints | app/services/scoring_engine.py:22-29 | a miss scores 0, and a dart within the board's domain scores between 0 and 60 |
| ScoringEngine.IsValidCheckout | app/services/scoring_engine.py:32-42 | a checkout exactly when the dart's points equal the remaining score and the multiplier is 2 |
| ScoringEngine.IsBust | app/services/scoring_engine.py:45-52 | a bust exactly when the new remaining score is below 2 |
| ScoringEngine.DartBusts | app/services/scoring_engine.py:161-163 | the engine's inline test agrees with `is_bust`, so a dart that reaches zero busts |
| ScoringEngine.GetPlayerCurrentScore | app/services/scoring_engine.py:238-253 | 501 minus the scores of the player's non-bust turns |
| ScoringEngine.CheckDart | app/services/scoring_engine.py:69-77 | the first failing check among dart number, segment and multiplier, and none when all three are in range |
| ScoringEngine.TargetTurn | app/services/scoring_engine.py:79-97 | the turn found by `get_last_turn_for_leg` when it is the thrower's; none when there is none or it is another player's |
| ScoringEngine.GetOrCreateTurn | app/services/scoring_engine.py:79-133 | a new turn is needed exactly when there is no target turn; the new turn is numbered after all turns and starts from the recomputed score |
| ScoringEngine.ApplyDart | app/services/scoring_engine.py:157-216 | scores the dart against the turn as the rule functions say, counts the dart and records its throw |
| ScoringEngine.ProcessThrow | app/services/scoring_engine.py:55-235 | on success the leg's turns are those the throw commits and the reply is its outcome; on error the turns are unchanged |
| ScoringEngine.UndoLastThrow | app/services/scoring_engine.py:256-314 | the turns become those the undo commits; undoing a checkout throw reopens the leg; with nothing to undo the leg is unchanged |
| ScoringEngine.CurrentPlayer | app/services/scoring_engine.py:350-371 | a reported open turn is one of the leg's turns, has fewer than three darts and no flag, and its player is the current one; after a closed turn the current player is in the rotation; it raises only when the last turn's player is not in the rotation |
| ScoringEngine.GetCurrentGameState | app/services/scoring_engine.py:338-381 | raises for an unknown leg or a missing match; otherwise reports the leg's turns, the match's game type, and the current player and turn as `CurrentPlayer` gives them for the match's rotation |
| ScoringEngine.StartNewLeg | app/services/scoring_engine.py:317-336 | raises exactly for an unknown match; otherwise a fresh active leg of the match, numbered one past its legs, with the given starting player and no winner, end time or turns |
| EngineProperties.PointRulesAgree | app/models/throw.py:43-49 | `Throw.create_for_turn` and `calculate_points` give every dart the same points, and bull with multiplier other than 1 scores 50 |
| EngineProperties.CheckoutDartBusts | app/services/scoring_engine.py:161-163 | a dart that is a valid checkout is judged a bust |
| EngineProperties.DartsInLegUpdate | app/services/scoring_engine.py:215-221 | replacing one turn changes the leg's dart total by the difference in that turn's darts |
| EngineProperties.NonBustTotalUpdate | app/services/scoring_engine.py:104-116 | replacing one turn changes a player's non-bust total only by that turn's part |
| EngineProperties.ThrowRefusedIff | app/services/scoring_engine.py:69-144 | a throw is refused exactly for an out-of-range value or a dart number already in the target turn; an unexpected dart number is accepted |
| EngineProperties.ThrowRouting | app/services/scoring_engine.py:79-133 | a new turn is appended exactly when there is no unfinished turn or it is another player's; it is numbered after all turns, and otherwise only the thrower's turn changes |
| EngineProperties.DartRules | app/services/scoring_engine.py:157-235 | a dart busts exactly when it would leave less than 2; a bust zeroes the turn's score and keeps its remaining score; otherwise the points move from remaining to score; the turn counts one dart more; no checkout is reported |
| EngineProperties.ThrowCountsOneDart | app/services/scoring_engine.py:215-221 | every accepted dart adds exactly one dart to the leg |
| EngineProperties.ThrowKeepsOtherScores | app/services/scoring_engine.py:104-116 | a dart never changes another player's recomputed score |
| EngineProperties.ScoredTurnWellFormed | app/services/scoring_engine.py:135-216 | the turn a dart lands in stays well formed |
| EngineProperties.ThrowKeepsWellFormed | app/services/scoring_engine.py:55-235 | a throw keeps the leg well formed, and on a well-formed leg the reply never reports a completed game |
| EngineProperties.UndoNothingIff | app/services/scoring_engine.py:258-266 | undo does nothing exactly when there is no unfinished turn or it has no throws |
| EngineProperties.UndoRules | app/services/scoring_engine.py:256-314 | undo removes the throw with the highest dart number; a bust only clears the flag; any other throw gives its points back; the turn is deleted exactly when it had one dart |
| EngineProperties.UndoDoubleCountsDeletedTurn | app/services/scoring_engine.py:298-305 | a deleted turn's reply reports its remaining score plus twice the removed points after a non-bust dart, plus the points once after a bust dart |
| EngineProperties.UndoKeepsWellFormed | app/services/scoring_engine.py:256-314 | undo keeps the leg well formed and never reopens a well-formed leg |
| EngineProperties.LastThrowIsNewest | app/models/throw.py:63-65 | a throw whose dart number exceeds all earlier ones is the last throw of the turn |
| EngineProperties.UndoFindsLandingTurn | app/services/scoring_engine.py:256-266 | after a dart that leaves its turn unfinished, undo looks at that turn |
| EngineProperties.ThrowThenUndo | app/services/scoring_engine.py:55-314 | undo restores the turns after a non-bust dart that left its turn unfinished; the reply is the restored turn, or a deleted turn with the points double-counted |
| EngineProperties.BustThenUndoLosesScore | app/services/scoring_engine.py:179-185 | undoing a bust in a turn that had darts leaves its score at zero and clears its bust flag |
| EngineProperties.ThirdDartIsFinal | app/models/turn.py:94-101 | after the third dart of a turn, undo no longer finds that turn |
| EngineProperties.LastUnfinishedIsTarget | app/services/scoring_engine.py:79-97 | in a well-formed leg, an unfinished last turn is where its player's next dart goes |
| EngineProperties.OpenTurnIsTarget | app/services/scoring_engine.py:353-359 | an open turn in the game state is the leg's last turn and the target of its player's next dart |
| EngineProperties.CurrentPlayerWhileOpen | app/services/scoring_engine.py:352-371 | in a well-formed leg with no turns the starting player throws; with a last turn that has fewer than three darts and no flag, its player throws and that turn is current |
| EngineProperties.SuccessorIsOther | app/services/scoring_engine.py:366-368 | in a rotation of two or more distinct players the cyclic successor is someone else |
| EngineProperties.NextPlayerAfterClosedTurn | app/services/scoring_engine.py:355-368 | after a closed or bust turn the game state names the next player in rotation, or raises when the player is not in it |
| EngineProperties.BustTurnStaysOpen | app/services/scoring_engine.py:91-97 | a bust turn with darts to spare still takes its player's darts, while the game state reports no open turn |
| MatchRoutes.AsPyInt | app/routes/matches.py:142 | integers and booleans are Python ints, and `true`/`false` are 1/0 |
| MatchRoutes.AbsentFields | app/routes/matches.py:128-134 | exactly the required fields missing from the body; empty exactly when all are present |
| MatchRoutes.ValidateThrow | app/routes/matches.py:128-186 | each refusal in the route's order (missing fields, non-integer dart number, segment, multiplier, dart-number range, unknown leg, leg of another match, unknown match, player not in the match) under the condition that every earlier check passed; a request passing all checks is accepted with its values as Python integers, and an accepted request passed every check |
| MatchRoutes.RecordThrow | app/routes/matches.py:118-206 | a refused request changes nothing; otherwise the leg's turns become what the engine commits, and an engine error is a 500 with nothing changed |
| MatchRoutes.RotationStep | app/routes/matches.py:230-233 | fails exactly when the current player is not in the rotation; otherwise the current player and the one after it, cyclically |
| MatchRoutes.NextPlayer | app/routes/matches.py:209-239 | 404 exactly for a missing leg or a leg of another match; a game-state error is passed on; otherwise the rotation step from the game state's current player, or from the leg's starting player when that id is 0 |
| MatchRoutes.GetCurrentLeg | app/routes/matches.py:97-115 | 404 exactly for an unknown match, or for a match without active legs; otherwise the game state of an active leg of the match |
| MatchRoutes.CurrentLegIsStoredLast | app/routes/matches.py:102-113 | the reply is the game state of the match's active leg stored last, or its error |
| MatchRoutes.FirstUnregistered | app/routes/matches.py:39-43 | none exactly when every id is a registered player; otherwise an unregistered id from the list, and every id before its first occurrence is registered |
| MatchRoutes.CreateMatchRefusal | app/routes/matches.py:28-54 | in the route's order: an empty body; a missing `player_ids`; a `player_ids` that is a number, boolean or null and cannot be iterated; the first unregistered id, named; a game type other than '501' or 'cricket'; 'cricket'. No refusal exactly when the body is non-empty, lists only registered players and has game type '501' |
| MatchRoutes.CreateMatchRefusalStatus | app/routes/matches.py:28-54 | the refusals are 404 exactly for an unknown player, 500 exactly for a `player_ids` that cannot be iterated, 501 exactly for cricket, and 400 otherwise |
| MatchRoutes.CreateMatch | app/routes/matches.py:25-71 | refusals and duplicate players create nothing; an empty list leaves an active 501 match without players or end time, and fails; otherwise an active 501 match with no end time, in the given order, whose player rows keep the (player, match) key unique, and its first leg: active, started by the first player, with no winner, end time or turns |
| MatchRoutes.ThrowRefusalStatus | app/routes/matches.py:128-186 | refusals are 404 exactly for an unknown leg or match, otherwise 400; missing fields are reported first |
| MatchRoutes.AcceptedThrowOnlyFailsAsDuplicate | app/routes/matches.py:142-161 | a request the route accepts passes the engine's range checks, so the engine can only refuse a repeated dart number |
| MatchRoutes.BooleansPassAsIntegers | app/routes/matches.py:142-161 | `true` passes as dart number 1 and `false` as segment 0 |
| MatchRoutes.NextPlayerIsSomeoneElse | app/routes/matches.py:230-233 | with two or more distinct players, the next player differs from the current one |
| MatchRoutes.ForcedMoveAfterClosedTurnReturns | app/routes/matches.py:209-239 | in a two-player match, forcing the move after a closed or bust turn names the player whose turn just ended |

## Left out

- Logging (`print`), `to_dict` serialisation, and the `players`, `leg` and
  `match` dictionaries of the game-state reply. Replies are datatypes, and
  the game state carries only the current player and turn, the turns, and
  the game type.
- The columns `start_time`, `created_at` and `updated_at`. End times are
  stamped from a `now` parameter.
- Concurrency between requests. Each operation is one atomic step on the
  leg.
- The `darts_thrown is None` repair at app/services/scoring_engine.py:147-149.
  `Turn.__init__` never leaves the counter unset, so the engine never sees it.
- The dart-number mismatch warning at lines 151-155, which only logs.
- The fallback `if turn else cls.STARTING_SCORE_501` at line 304. The turn
  object is always present there, so only the taken branch is modelled.
- Ties between rows with equal turn numbers or dart numbers in the
  `ORDER BY … DESC` lookups. The database's choice is unspecified; the model
  takes the later row.
- `get_current_game_state` orders turns by turn number; the model returns
  them in insertion order. The two agree on well-formed legs.
- The routes `get_matches`, `get_match`, `get_match_legs` and
  `complete_match`. They are thin reads, or wrappers of
  `MatchModel.ActiveMatches`, `MatchModel.GetMatchById` and
  `MatchModel.Match.Complete`.
- The player, statistics and cricket parts of the server, including
  app/routes/players.py, app/routes/stats.py and app/models/player.py. They
  are not part of this model. Cricket is answered 501 and nothing more.
- Request bodies that are not JSON objects, and JSON floats and objects as
  field values.
- A `player_ids` value with a duplicate id. The model assumes the commit
  fails on the (player, match) primary key of `player_matches`.
- MatchRoutes.CreateMatch: requires that `player_ids`, when present, is not
  a string. Python iterates a string character by character and passes each
  character to `Player.get_by_id`; what the database driver makes of that is
  outside the model. A number, boolean or null is modelled: the loop raises
  before anything is created, and the framework answers 500.
- MatchRoutes.CreateMatchRefusal: has the same requires as
  `MatchRoutes.CreateMatch`, for the same reason. Arrays holding values other
  than integers are not representable as request values at all.
- MatchModel.InsertByOrder: states a sorted permutation, not that rows with
  equal `player_order` keep their relative order, as Python's stable
  `sorted` does. Rows created by `create_501_match` have distinct orders, so
  no ties arise.
- MatchRoutes.AbsentFields: states which fields are reported, not that they
  are listed in the order `player_id`, `segment`, `multiplier`,
  `dart_number`. The order is only that of the definition.
- MatchModel.Match.OrderedPlayerIds: states only the number of ids. That the
  rotation of a created match is its creation order is stated by
  `MatchModel.Match.Create501`.
- MatchModel.ActiveMatches: does not state that the stored order is kept.
- LegModel.ActiveLegsForMatch: states which legs are listed and, through
  `LegModel.LastActiveLegIsStoredLast`, which one is last; not the order of
  the others.
- MatchRoutes.GetCurrentLeg: states an active leg of the match; that it is
  the one stored last is stated by `MatchRoutes.CurrentLegIsStoredLast`.
  "Last" is in insertion order: the source's `.all()` has no `ORDER BY`, so
  the database's order is unspecified and the model takes insertion order.
- MatchModel.SortedIds: states only the number of ids; which ids and in
  what order is stated by `MatchModel.SortedIdsFollowOrder`.
- ScoringEngine.CalculatePoints: the 0-60 bound holds only on the board's
  domain. Outside it the function computes `segment * multiplier` as the
  source does.

=== FILE: engine_properties.dfy ===
/**
 * What the scoring engine guarantees, and where it departs from the rules of 501,
 * stated over the specification functions of `ScoringEngine`.
 */
module EngineProperties {
  import opened Wrappers
  import opened ThrowModel
  import opened TurnModel
  import opened ScoringEngine

  // ---------------------------------------------------------------------------
  // Point rule
  // ---------------------------------------------------------------------------

  /**
   * The engine and `Throw.create_for_turn` score every dart alike; in particular a
   * bull with any multiplier but 1 scores 50.
   */
  lemma PointRulesAgree(dartNumber: int, segment: int, multiplier: int)
    ensures CreateForTurn(dartNumber, segment, multiplier).points == CalculatePoints(segment, multiplier)
    ensures segment == 25 && multiplier != 1 ==> CalculatePoints(segment, multiplier) == 50
  {
  }

  /** A dart that would be a valid checkout is judged a bust by the engine's own test. */
  lemma CheckoutDartBusts(remainingScore: int, segment: int, multiplier: int)
    requires IsValidCheckout(remainingScore, CalculatePoints(segment, multiplier), multiplier, segment)
    ensures DartBusts(remainingScore, CalculatePoints(segment, multiplier), segment, multiplier)
  {
  }

  // ---------------------------------------------------------------------------
  // Sums over a leg's turns
  // ---------------------------------------------------------------------------

  /** Darts recorded in the whole leg. */
  function DartsInLeg(turns: seq<Turn>): int
    decreases |turns|
  {
    if |turns| == 0 then 0 else DartsInLeg(turns[..|turns| - 1]) + turns[|turns| - 1].dartsThrown
  }

  /** What one turn adds to `NonBustTotal` for player `p`. */
  function Contribution(t: Turn, p: int): int {
    if t.playerId == p && !t.isBust then t.score else 0
  }

  lemma {:induction false} DartsInLegUpdate(turns: seq<Turn>, k: nat, t: Turn)
    requires k < |turns|
    ensures DartsInLeg(turns[k := t]) == DartsInLeg(turns) - turns[k].dartsThrown + t.dartsThrown
    decreases |turns|
  {
    var n := |turns| - 1;
    if k < n {
      assert turns[k := t][..n] == turns[..n][k := t];
      DartsInLegUpdate(turns[..n], k, t);
    } else {
      assert turns[k := t][..n] == turns[..n];
    }
  }

  lemma DartsInLegAppend(turns: seq<Turn>, t: Turn)
    ensures DartsInLeg(turns + [t]) == DartsInLeg(turns) + t.dartsThrown
  {
  }

  lemma {:induction false} NonBustTotalUpdate(turns: seq<Turn>, k: nat, t: Turn, p: int)
    requires k < |turns|
    ensures NonBustTotal(turns[k := t], p) == NonBustTotal(turns, p) - Contribution(turns[k], p) + Contribution(t, p)
    decreases |turns|
  {
    var n := |turns| - 1;
    if k < n {
      assert turns[k := t][..n] == turns[..n][k := t];
      NonBustTotalUpdate(turns[..n], k, t, p);
    } else {
      assert turns[k := t][..n] == turns[..n];
    }
  }

  lemma NonBustTotalAppend(turns: seq<Turn>, t: Turn, p: int)
    ensures NonBustTotal(turns + [t], p) == NonBustTotal(turns, p) + Contribution(t, p)
  {
  }

  // ---------------------------------------------------------------------------
  // process_throw
  // ---------------------------------------------------------------------------

  /**
   * A throw is refused exactly when a dart number, segment or multiplier lies outside
   * its domain, or the target turn already holds a dart with that number; a number
   * other than `darts_thrown + 1` is accepted.
   */
  lemma ThrowRefusedIff(turns: seq<Turn>, playerId: int, segment: int, multiplier: int, dartNumber: int)
    ensures ThrowResult(turns, playerId, segment, multiplier, dartNumber).Failure? <==>
              || !ValidDartNumber(dartNumber) || !ValidSegment(segment) || !ValidMultiplier(multiplier)
              || HasDartNumber(OpeningTurn(turns, playerId).throws, dartNumber)
    ensures ValidDartNumber(dartNumber) && ValidSegment(segment) && ValidMultiplier(multiplier)
            && HasDartNumber(OpeningTurn(turns, playerId).throws, dartNumber) ==>
              ThrowResult(turns, playerId, segment, multiplier, dartNumber) == Failure(DuplicateDart(dartNumber))
  {
  }

  /**
   * Where the dart goes: a new turn is appended exactly when no turn has fewer than 3
   * darts or the highest-numbered such turn is another player's, and it is numbered
   * after every turn of the leg and starts from the player's recomputed score;
   * otherwise that turn, which is this player's, is the only one that changes.
   */
  lemma ThrowRouting(turns: seq<Turn>, playerId: int, segment: int, multiplier: int, dartNumber: int)
    requires ThrowResult(turns, playerId, segment, multiplier, dartNumber).Success?
    ensures var c := ThrowResult(turns, playerId, segment, multiplier, dartNumber).value;
      && (|c.turns| == |turns| + 1 <==>
            LastTurnForLeg(turns).None? || turns[LastTurnForLeg(turns).value].playerId != playerId)
      && (|c.turns| == |turns| + 1 ==>
            && c.turns[..|turns|] == turns
            && c.turns[|turns|] == c.outcome.turn
            && c.outcome.turn.playerId == playerId
            && c.outcome.turn.turnNumber == NextTurnNumber(turns)
            && c.outcome.turn.throws == [c.outcome.thrown]
            && c.outcome.turn.dartsThrown == 1
            && (c.outcome.isBust ==> c.outcome.turn.remainingScore == PlayerScore(turns, playerId)))
      && (|c.turns| == |turns| ==>
            var k := LastTurnForLeg(turns).value;
            && turns[k].playerId == playerId
            && c.turns == turns[k := c.outcome.turn])
  {
  }

  /**
   * The bust rule as `process_throw` applies it: the dart busts exactly when it leaves
   * the turn's remaining score below 2, zero included. A bust flags dart and turn,
   * zeroes the turn's score and keeps its remaining score; any other dart adds its
   * points and leaves a remaining score of at least 2. Either way the turn counts one
   * dart more, and neither a checkout nor a completed game is ever reported.
   */
  lemma DartRules(turns: seq<Turn>, playerId: int, segment: int, multiplier: int, dartNumber: int)
    requires ThrowResult(turns, playerId, segment, multiplier, dartNumber).Success?
    ensures var o := ThrowResult(turns, playerId, segment, multiplier, dartNumber).value.outcome;
      var before := OpeningTurn(turns, playerId);
      var points := CalculatePoints(segment, multiplier);
      && (o.isBust <==> before.remainingScore - points < 2)
      && (o.isBust ==> o.turn.isBust && o.thrown.isBust && o.turn.score == 0
                       && o.turn.remainingScore == before.remainingScore)
      && (!o.isBust ==> o.turn.isBust == before.isBust && !o.thrown.isBust
                        && o.turn.score == before.score + points
                        && o.turn.remainingScore == before.remainingScore - points >= 2)
      && o.turn.dartsThrown == before.dartsThrown + 1
      && o.remainingScore == o.turn.remainingScore
      && o.thrown == CreateForTurn(dartNumber, segment, multiplier).(isBust := o.isBust)
      && !o.isCheckout && !o.thrown.isCheckout
      && o.gameCompleted == before.isCheckout
  {
  }

  /** Every accepted dart is counted exactly once in the leg. */
  lemma ThrowCountsOneDart(turns: seq<Turn>, playerId: int, segment: int, multiplier: int, dartNumber: int)
    requires ThrowResult(turns, playerId, segment, multiplier, dartNumber).Success?
    ensures DartsInLeg(ThrowResult(turns, playerId, segment, multiplier, dartNumber).value.turns) == DartsInLeg(turns) + 1
  {
    var c := ThrowResult(turns, playerId, segment, multiplier, dartNumber).value;
    match TargetTurn(turns, playerId)
    case Some(k) => DartsInLegUpdate(turns, k, c.outcome.turn);
    case None => DartsInLegAppend(turns, c.outcome.turn);
  }

  /** A dart changes no other player's recomputed score. */
  lemma ThrowKeepsOtherScores(turns: seq<Turn>, playerId: int, segment: int, multiplier: int, dartNumber: int, other: int)
    requires ThrowResult(turns, playerId, segment, multiplier, dartNumber).Success?
    requires other != playerId
    ensures PlayerScore(ThrowResult(turns, playerId, segment, multiplier, dartNumber).value.turns, other)
            == PlayerScore(turns, other)
  {
    var c := ThrowResult(turns, playerId, segment, multiplier, dartNumber).value;
    match TargetTurn(turns, playerId)
    case Some(k) => NonBustTotalUpdate(turns, k, c.outcome.turn, other);
    case None => NonBustTotalAppend(turns, c.outcome.turn, other);
  }

  /** The new or updated turn is well formed when the turn it came from was, or was just created. */
  lemma ScoredTurnWellFormed(turns: seq<Turn>, playerId: int, segment: int, multiplier: int, dartNumber: int)
    requires WellFormed(turns)
    requires ThrowResult(turns, playerId, segment, multiplier, dartNumber).Success?
    ensures WellFormedTurn(ThrowResult(turns, playerId, segment, multiplier, dartNumber).value.outcome.turn)
  {
  }

  /**
   * `process_throw` keeps the leg well formed; in particular no turn ever becomes a
   * checkout, so on a well-formed leg the reply never reports a completed game.
   */
  lemma ThrowKeepsWellFormed(turns: seq<Turn>, playerId: int, segment: int, multiplier: int, dartNumber: int)
    requires WellFormed(turns)
    requires ThrowResult(turns, playerId, segment, multiplier, dartNumber).Success?
    ensures WellFormed(ThrowResult(turns, playerId, segment, multiplier, dartNumber).value.turns)
    ensures !ThrowResult(turns, playerId, segment, multiplier, dartNumber).value.outcome.gameCompleted
  {
    var c := ThrowResult(turns, playerId, segment, multiplier, dartNumber).value;
    DartRules(turns, playerId, segment, multiplier, dartNumber);
    ScoredTurnWellFormed(turns, playerId, segment, multiplier, dartNumber);
    match TargetTurn(turns, playerId)
    case Some(k) =>
      assert c.turns == turns[k := c.outcome.turn];
      assert c.outcome.turn.turnNumber == turns[k].turnNumber;
    case None =>
      var n := NextTurnNumber(turns);
      assert c.turns == turns + [c.outcome.turn];
      assert c.outcome.turn.turnNumber == n;
      assert n >= 1;
  }

  // ---------------------------------------------------------------------------
  // undo_last_throw
  // ---------------------------------------------------------------------------

  /** Undo does nothing exactly when there is no unfinished turn or that turn has no throws. */
  lemma UndoNothingIff(turns: seq<Turn>)
    ensures UndoResult(turns).None? <==>
              LastTurnForLeg(turns).None? || |turns[LastTurnForLeg(turns).value].throws| == 0
  {
  }

  /**
   * What undo removes and restores: the throw with the highest dart number in the
   * unfinished turn the lookup finds. A bust throw only clears the bust flag, so the
   * zeroed score stays zero; any other throw gives its points back. The turn is deleted
   * when it had one dart, and only then.
   */
  lemma UndoRules(turns: seq<Turn>)
    requires UndoResult(turns).Some?
    ensures var u := UndoResult(turns).value;
      var k := LastTurnForLeg(turns).value;
      var thrown := u.outcome.throwRemoved;
      && thrown in turns[k].throws
      && (forall i :: 0 <= i < |turns[k].throws| ==> turns[k].throws[i].dartNumber <= thrown.dartNumber)
      && (u.outcome.turnRemoved <==> turns[k].dartsThrown == 1)
      && (u.outcome.turnRemoved ==> u.turns == RemoveAt(turns, k) && u.outcome.turn.None?)
      && (!u.outcome.turnRemoved ==>
            && u.turns == turns[k := u.outcome.turn.value]
            && u.outcome.remainingScore == u.outcome.turn.value.remainingScore
            && u.outcome.turn.value.dartsThrown == turns[k].dartsThrown - 1
            && (thrown.isBust ==> && !u.outcome.turn.value.isBust
                                  && u.outcome.turn.value.score == turns[k].score
                                  && u.outcome.turn.value.remainingScore == turns[k].remainingScore)
            && (!thrown.isBust ==> && u.outcome.turn.value.score == turns[k].score - thrown.points
                                   && u.outcome.turn.value.remainingScore == turns[k].remainingScore + thrown.points))
      && (u.reopensLeg <==> !thrown.isBust && thrown.isCheckout)
  {
  }

  /**
   * When undo deletes a turn whose dart was not a bust, the remaining score it reports
   * adds the removed throw's points a second time (once in the turn, once more in the
   * reply). After a bust dart the turn's score was not lowered, so the points are added
   * once.
   */
  lemma UndoDoubleCountsDeletedTurn(turns: seq<Turn>)
    requires UndoResult(turns).Some? && UndoResult(turns).value.outcome.turnRemoved
    ensures var u := UndoResult(turns).value;
      var before := turns[LastTurnForLeg(turns).value].remainingScore;
      && (!u.outcome.throwRemoved.isBust ==> u.outcome.remainingScore == before + 2 * u.outcome.throwRemoved.points)
      && (u.outcome.throwRemoved.isBust ==> u.outcome.remainingScore == before + u.outcome.throwRemoved.points)
  {
  }

  /** Undo keeps the leg well formed, and in a well-formed leg it never reopens the leg. */
  lemma UndoKeepsWellFormed(turns: seq<Turn>)
    requires WellFormed(turns)
    requires UndoResult(turns).Some?
    ensures WellFormed(UndoResult(turns).value.turns)
    ensures !UndoResult(turns).value.reopensLeg
  {
  }

  /** The position the dart of a successful throw lands in: the target turn, or a new last turn. */
  function LandingIndex(turns: seq<Turn>, playerId: int): nat {
    TargetTurn(turns, playerId).GetOr(|turns|)
  }

  /** Of throws whose last one carries the highest dart number, that one is the last throw of the turn. */
  lemma LastThrowIsNewest(earlier: seq<Throw>, thrown: Throw)
    requires forall i :: 0 <= i < |earlier| ==> earlier[i].dartNumber < thrown.dartNumber
    ensures LastThrowForTurn(earlier + [thrown]) == Some(|earlier|)
  {
  }

  /**
   * After a dart that leaves its turn unfinished, undo looks at that turn: it is the
   * unfinished turn with the highest turn number.
   */
  lemma UndoFindsLandingTurn(turns: seq<Turn>, playerId: int, segment: int, multiplier: int, dartNumber: int)
    requires WellFormed(turns)
    requires ThrowResult(turns, playerId, segment, multiplier, dartNumber).Success?
    requires OpeningTurn(turns, playerId).dartsThrown < 2
    ensures var c := ThrowResult(turns, playerId, segment, multiplier, dartNumber).value;
      && LandingIndex(turns, playerId) < |c.turns|
      && c.turns[LandingIndex(turns, playerId)] == c.outcome.turn
      && LastTurnForLeg(c.turns) == Some(LandingIndex(turns, playerId))
  {
  }

  /**
   * Undo reverses a throw that was not a bust and left its turn unfinished, provided the
   * dart carried the highest number in its turn: the leg's turns are exactly as before
   * and the leg is not reopened. The reply is the restored turn, or, when the dart had
   * opened a new turn, the deletion of that turn with a remaining score that counts the
   * dart's points once too often.
   */
  lemma ThrowThenUndo(turns: seq<Turn>, playerId: int, segment: int, multiplier: int, dartNumber: int)
    requires WellFormed(turns)
    requires ThrowResult(turns, playerId, segment, multiplier, dartNumber).Success?
    requires !ThrowResult(turns, playerId, segment, multiplier, dartNumber).value.outcome.isBust
    requires OpeningTurn(turns, playerId).dartsThrown < 2
    requires forall i :: 0 <= i < |OpeningTurn(turns, playerId).throws| ==>
               OpeningTurn(turns, playerId).throws[i].dartNumber < dartNumber
    ensures var c := ThrowResult(turns, playerId, segment, multiplier, dartNumber).value;
      && UndoResult(c.turns).Some?
      && UndoResult(c.turns).value.turns == turns
      && !UndoResult(c.turns).value.reopensLeg
      && UndoResult(c.turns).value.outcome.throwRemoved == c.outcome.thrown
      && (UndoResult(c.turns).value.outcome.turnRemoved <==> TargetTurn(turns, playerId).None?)
      && (TargetTurn(turns, playerId).None? ==>
            UndoResult(c.turns).value.outcome.remainingScore == PlayerScore(turns, playerId) + c.outcome.thrown.points)
      && (TargetTurn(turns, playerId).Some? ==>
            UndoResult(c.turns).value.outcome.turn == Some(turns[TargetTurn(turns, playerId).value]))
  {
    var c := ThrowResult(turns, playerId, segment, multiplier, dartNumber).value;
    var before := OpeningTurn(turns, playerId);
    UndoFindsLandingTurn(turns, playerId, segment, multiplier, dartNumber);
    var t := c.outcome.turn;
    var j := |before.throws|;
    assert t.throws == before.throws + [c.outcome.thrown];
    LastThrowIsNewest(before.throws, c.outcome.thrown);
    assert RemoveAt(t.throws, j) == before.throws;
    assert UnscoreDart(t, j) == before;
    match TargetTurn(turns, playerId)
    case Some(k) =>
      assert turns[k := t][k := before] == turns;
    case None =>
      assert RemoveAt(turns + [t], |turns|) == turns;
  }

  /**
   * Undoing a bust in a turn that already held a dart does not restore the turn: its
   * score stays zero, so the earlier dart's points no longer count, and its bust flag
   * is cleared even when an earlier dart had set it.
   */
  lemma BustThenUndoLosesScore(turns: seq<Turn>, playerId: int, segment: int, multiplier: int, dartNumber: int)
    requires WellFormed(turns)
    requires TargetTurn(turns, playerId).Some?
    requires ThrowResult(turns, playerId, segment, multiplier, dartNumber).Success?
    requires ThrowResult(turns, playerId, segment, multiplier, dartNumber).value.outcome.isBust
    requires OpeningTurn(turns, playerId).dartsThrown < 2
    requires forall i :: 0 <= i < |OpeningTurn(turns, playerId).throws| ==>
               OpeningTurn(turns, playerId).throws[i].dartNumber < dartNumber
    ensures var c := ThrowResult(turns, playerId, segment, multiplier, dartNumber).value;
      var k := TargetTurn(turns, playerId).value;
      && UndoResult(c.turns).Some?
      && UndoResult(c.turns).value.turns == turns[k := turns[k].(score := 0, isBust := false)]
      && (turns[k].score != 0 ==> UndoResult(c.turns).value.turns != turns)
  {
    var c := ThrowResult(turns, playerId, segment, multiplier, dartNumber).value;
    var k := TargetTurn(turns, playerId).value;
    var before := turns[k];
    UndoFindsLandingTurn(turns, playerId, segment, multiplier, dartNumber);
    var t := c.outcome.turn;
    var j := |before.throws|;
    assert t.throws == before.throws + [c.outcome.thrown];
    LastThrowIsNewest(before.throws, c.outcome.thrown);
    assert RemoveAt(t.throws, j) == before.throws;
    assert UnscoreDart(t, j) == before.(score := 0, isBust := false);
    assert turns[k := t][k := before.(score := 0, isBust := false)] == turns[k := before.(score := 0, isBust := false)];
    if turns[k].score != 0 {
      assert turns[k := before.(score := 0, isBust := false)][k] != turns[k];
    }
  }

  /** The dart that completes a turn can never be undone: undo no longer finds that turn. */
  lemma ThirdDartIsFinal(turns: seq<Turn>, playerId: int, segment: int, multiplier: int, dartNumber: int)
    requires ThrowResult(turns, playerId, segment, multiplier, dartNumber).Success?
    requires ThrowResult(turns, playerId, segment, multiplier, dartNumber).value.outcome.turn.dartsThrown == 3
    ensures LastTurnForLeg(ThrowResult(turns, playerId, segment, multiplier, dartNumber).value.turns)
            != Some(LandingIndex(turns, playerId))
  {
  }

  // ---------------------------------------------------------------------------
  // get_current_game_state
  // ---------------------------------------------------------------------------

  /** In a well-formed leg whose last turn is unfinished, that turn is the one a throw of its player goes to. */
  lemma LastUnfinishedIsTarget(turns: seq<Turn>)
    requires WellFormed(turns) && |turns| > 0 && Unfinished(turns[|turns| - 1])
    ensures TargetTurn(turns, turns[|turns| - 1].playerId) == Some(|turns| - 1)
  {
  }

  /** When the game state reports an open turn, it is the leg's last turn and the one that player's next dart goes to. */
  lemma OpenTurnIsTarget(turns: seq<Turn>, startingPlayerId: int, rotation: seq<int>)
    requires WellFormed(turns)
    requires CurrentPlayer(turns, startingPlayerId, rotation).Success?
    requires CurrentPlayer(turns, startingPlayerId, rotation).value.1.Some?
    ensures var p := CurrentPlayer(turns, startingPlayerId, rotation).value;
      && |turns| > 0
      && p.1 == Some(turns[|turns| - 1])
      && TargetTurn(turns, p.0) == Some(|turns| - 1)
  {
  }

  /**
   * The two cases of the game state that do not move the turn on: with no turns the
   * leg's starting player throws, and while the last turn has fewer than three darts
   * and neither flag, its player throws and that turn is the current one.
   */
  lemma CurrentPlayerWhileOpen(turns: seq<Turn>, startingPlayerId: int, rotation: seq<int>)
    requires WellFormed(turns)
    ensures |turns| == 0 ==> CurrentPlayer(turns, startingPlayerId, rotation) == Success((startingPlayerId, None))
    ensures |turns| > 0 && turns[|turns| - 1].dartsThrown < 3 && !turns[|turns| - 1].isBust
            && !turns[|turns| - 1].isCheckout ==>
              CurrentPlayer(turns, startingPlayerId, rotation)
                == Success((turns[|turns| - 1].playerId, Some(turns[|turns| - 1])))
  {
    if |turns| > 0 {
      LatestTurnIsLast(turns);
    }
  }

  /** In a rotation of at least two distinct players, each player's successor is somebody else. */
  lemma SuccessorIsOther(rotation: seq<int>, i: nat)
    requires Distinct(rotation) && |rotation| >= 2 && i < |rotation|
    ensures rotation[(i + 1) % |rotation|] != rotation[i]
  {
  }

  /**
   * Once the last turn is over (three darts, or a bust), the game state names the
   * player after its player in the rotation, wrapping around, and raises when that
   * player is not in the rotation; with at least two distinct players in the rotation
   * the next player is somebody else.
   */
  lemma NextPlayerAfterClosedTurn(turns: seq<Turn>, startingPlayerId: int, rotation: seq<int>)
    requires WellFormed(turns) && |turns| > 0
    requires turns[|turns| - 1].dartsThrown == 3 || turns[|turns| - 1].isBust
    ensures IndexOf(rotation, turns[|turns| - 1].playerId).None? ==>
              CurrentPlayer(turns, startingPlayerId, rotation) == Failure(PlayerNotInRotation(turns[|turns| - 1].playerId))
    ensures IndexOf(rotation, turns[|turns| - 1].playerId).Some? ==>
              var i := IndexOf(rotation, turns[|turns| - 1].playerId).value;
              && CurrentPlayer(turns, startingPlayerId, rotation) == Success((rotation[(i + 1) % |rotation|], None))
              && (Distinct(rotation) && |rotation| >= 2 ==> rotation[(i + 1) % |rotation|] != turns[|turns| - 1].playerId)
  {
    LatestTurnIsLast(turns);
    var last := turns[|turns| - 1];
    assert turns[Highest(turns, false).value] == last;
    var idx := IndexOf(rotation, last.playerId);
    if idx.Some? && Distinct(rotation) && |rotation| >= 2 {
      SuccessorIsOther(rotation, idx.value);
    }
  }

  /**
   * A bust turn with darts to spare keeps taking its player's darts, although the game
   * state already hands the throw to the next player.
   */
  lemma BustTurnStaysOpen(turns: seq<Turn>, startingPlayerId: int, rotation: seq<int>)
    requires WellFormed(turns) && |turns| > 0
    requires turns[|turns| - 1].isBust && turns[|turns| - 1].dartsThrown < 3
    ensures TargetTurn(turns, turns[|turns| - 1].playerId) == Some(|turns| - 1)
    ensures CurrentPlayer(turns, startingPlayerId, rotation).Success? ==>
              CurrentPlayer(turns, startingPlayerId, rotation).value.1.None?
  {
  }
}

=== FILE: leg_model.dfy ===
/**
 * The `legs` table (app/models/leg.py). A leg is updated in place (its status, winner
 * and end time by `complete`, its turns by the scoring engine), so it is a class; its
 * turns, and their throws, are the leg's in-memory aggregate.
 */
module LegModel {
  import opened Wrappers
  import opened TurnModel
  import opened MatchModel

  class Leg {
    const id: int
    const matchId: int
    const legNumber: int
    const startingPlayerId: int
    var winningPlayerId: Option<int>
    var endTime: Option<int>       // `end_time`; a timestamp is an opaque number here
    var status: LegStatus
    var turns: seq<Turn>           // the `turns` relationship, in insertion order

    /**
     * `Leg.create_for_match`: match, number and starting player as given; the column
     * defaults make it active, with no winner, no end time and no turns yet.
     */
    constructor CreateForMatch(id: int, matchId: int, legNumber: int, startingPlayerId: int)
      ensures this.id == id && this.matchId == matchId && this.legNumber == legNumber
      ensures this.startingPlayerId == startingPlayerId
      ensures status == LegActive && winningPlayerId == None && endTime == None && turns == []
    {
      this.id := id;
      this.matchId := matchId;
      this.legNumber := legNumber;
      this.startingPlayerId := startingPlayerId;
      winningPlayerId := None;
      endTime := None;
      status := LegActive;
      turns := [];
    }

    /** `Leg.complete`: completed, with the given winner and the current time; nothing else changes. */
    method Complete(winner: int, now: int)
      modifies this`status, this`winningPlayerId, this`endTime
      ensures status == LegCompleted && winningPlayerId == Some(winner) && endTime == Some(now)
    {
      status := LegCompleted;
      winningPlayerId := Some(winner);
      endTime := Some(now);
    }
  }

  /** `Leg.get_by_id`: the leg with that primary key, if any. */
  function GetLegById(legs: seq<Leg>, id: int): (r: Option<Leg>)
    ensures r.None? <==> forall k :: 0 <= k < |legs| ==> legs[k].id != id
    ensures r.Some? ==> r.value in legs && r.value.id == id
  {
    if |legs| == 0 then None
    else if legs[0].id == id then Some(legs[0])
    else GetLegById(legs[1..], id)
  }

  /** The `match_id` column of the stored legs, in stored order. */
  function MatchIdsOf(legs: seq<Leg>): (ids: seq<int>)
    ensures |ids| == |legs| && forall k :: 0 <= k < |legs| ==> ids[k] == legs[k].matchId
  {
    seq(|legs|, k requires 0 <= k < |legs| => legs[k].matchId)
  }

  /** How many legs belong to the match (`Leg.query.filter_by(match_id=...).count()`). */
  function CountLegsOfMatch(legs: seq<Leg>, matchId: int): (n: nat)
    ensures n == multiset(MatchIdsOf(legs))[matchId]
    ensures n <= |legs|
    ensures n == 0 <==> forall k :: 0 <= k < |legs| ==> legs[k].matchId != matchId
  {
    if |legs| == 0 then 0
    else
      assert MatchIdsOf(legs) == [legs[0].matchId] + MatchIdsOf(legs[1..]);
      (if legs[0].matchId == matchId then 1 else 0) + CountLegsOfMatch(legs[1..], matchId)
  }

  /** The leg is an active leg of match `matchId`. */
  predicate ActiveIn(leg: Leg, matchId: int)
    reads leg
  {
    leg.matchId == matchId && leg.status == LegActive
  }

  /**
   * `Leg.get_active_legs_for_match`: exactly the active legs of the match, in stored
   * order; in particular the last one is the active leg stored last.
   */
  function ActiveLegsForMatch(legs: seq<Leg>, matchId: int): (r: seq<Leg>)
    reads legs
    ensures forall k :: 0 <= k < |r| ==> r[k] in legs && ActiveIn(r[k], matchId)
    ensures forall k :: 0 <= k < |legs| && ActiveIn(legs[k], matchId) ==> legs[k] in r
    ensures |r| <= |legs|
  {
    if |legs| == 0 then []
    else
      var n := |legs| - 1;
      var rest := ActiveLegsForMatch(legs[..n], matchId);
      if ActiveIn(legs[n], matchId) then rest + [legs[n]]
      else rest
  }

  /** The last leg `get_active_legs_for_match` lists is the active leg of the match stored last. */
  lemma {:induction false} LastActiveLegIsStoredLast(legs: seq<Leg>, matchId: int, k: nat)
    requires k < |legs| && ActiveIn(legs[k], matchId)
    requires forall j :: k < j < |legs| ==> !ActiveIn(legs[j], matchId)
    ensures |ActiveLegsForMatch(legs, matchId)| > 0
    ensures ActiveLegsForMatch(legs, matchId)[|ActiveLegsForMatch(legs, matchId)| - 1] == legs[k]
  {
    var n := |legs| - 1;
    if k < n {
      assert !ActiveIn(legs[n], matchId);
      forall j | k < j < n
        ensures !ActiveIn(legs[..n][j], matchId)
      {
        assert legs[..n][j] == legs[j];
      }
      LastActiveLegIsStoredLast(legs[..n], matchId, k);
    }
  }
}

=== FILE: match_model.dfy ===
/**
 * The `matches` and `player_matches` tables and the status enumerations
 * (app/models/match.py).
 */
module MatchModel {
  import opened Wrappers

  /** `GameType`; its `__str__` is the stored value. */
  datatype GameType = Game501 | Cricket {
    function ToString(): string {
      match this
      case Game501 => "501"
      case Cricket => "cricket"
    }
  }

  /** `MatchStatus`; its `__str__` is the stored value. */
  datatype MatchStatus = MatchActive | MatchCompleted | MatchAbandoned {
    function ToString(): string {
      match this
      case MatchActive => "active"
      case MatchCompleted => "completed"
      case MatchAbandoned => "abandoned"
    }
  }

  /** `LegStatus`, also the two values of the `legs.status` column. */
  datatype LegStatus = LegActive | LegCompleted {
    function ToString(): string {
      match this
      case LegActive => "active"
      case LegCompleted => "completed"
    }
  }

  /** The strings the `game_type` column accepts, read back as a game type. */
  function ParseGameType(s: string): Option<GameType> {
    if s == "501" then Some(Game501) else if s == "cricket" then Some(Cricket) else None
  }

  /** The strings the `matches.status` column accepts. */
  function ParseMatchStatus(s: string): Option<MatchStatus> {
    if s == "active" then Some(MatchActive)
    else if s == "completed" then Some(MatchCompleted)
    else if s == "abandoned" then Some(MatchAbandoned)
    else None
  }

  /** The strings the `legs.status` column accepts. */
  function ParseLegStatus(s: string): Option<LegStatus> {
    if s == "active" then Some(LegActive) else if s == "completed" then Some(LegCompleted) else None
  }

  /** Each enumeration renders as a distinct string, and exactly those strings are accepted back. */
  lemma EnumStringsRoundTrip(g: GameType, m: MatchStatus, l: LegStatus, s: string)
    ensures ParseGameType(g.ToString()) == Some(g)
    ensures ParseGameType(s).Some? ==> ParseGameType(s).value.ToString() == s
    ensures ParseMatchStatus(m.ToString()) == Some(m)
    ensures ParseMatchStatus(s).Some? ==> ParseMatchStatus(s).value.ToString() == s
    ensures ParseLegStatus(l.ToString()) == Some(l)
    ensures ParseLegStatus(s).Some? ==> ParseLegStatus(s).value.ToString() == s
  {
  }

  /** A `player_matches` row; `(playerId, matchId)` is its primary key. */
  datatype PlayerMatch = PlayerMatch(playerId: int, matchId: int, playerOrder: int)

  /** The primary key holds: no player appears twice in one match. */
  predicate UniqueKeys(pms: seq<PlayerMatch>) {
    forall i, j :: 0 <= i < j < |pms| ==> (pms[i].playerId, pms[i].matchId) != (pms[j].playerId, pms[j].matchId)
  }

  predicate SortedByOrder(pms: seq<PlayerMatch>) {
    forall i, j :: 0 <= i < j < |pms| ==> pms[i].playerOrder <= pms[j].playerOrder
  }

  /** Inserts `x` into sorted rows, after every row whose order is not greater (a stable insertion). */
  function InsertByOrder(sorted: seq<PlayerMatch>, x: PlayerMatch): (r: seq<PlayerMatch>)
    requires SortedByOrder(sorted)
    ensures multiset(r) == multiset(sorted) + multiset{x}
    ensures forall e :: e in r ==> e in sorted || e == x
    ensures SortedByOrder(r)
    decreases |sorted|
  {
    if |sorted| == 0 || sorted[|sorted| - 1].playerOrder <= x.playerOrder then sorted + [x]
    else
      var n := |sorted| - 1;
      assert sorted == sorted[..n] + [sorted[n]];
      var rest := InsertByOrder(sorted[..n], x);
      assert forall k :: 0 <= k < |rest| ==> rest[k].playerOrder <= sorted[n].playerOrder by {
        forall k | 0 <= k < |rest| ensures rest[k].playerOrder <= sorted[n].playerOrder {
          assert rest[k] in rest;
        }
      }
      rest + [sorted[n]]
  }

  /** Python's stable `sorted(player_matches, key=lambda x: x.player_order)`. */
  function SortByOrder(pms: seq<PlayerMatch>): (r: seq<PlayerMatch>)
    ensures multiset(r) == multiset(pms)
    ensures SortedByOrder(r)
  {
    if |pms| == 0 then []
    else
      var n := |pms| - 1;
      assert pms == pms[..n] + [pms[n]];
      InsertByOrder(SortByOrder(pms[..n]), pms[n])
  }

  /** A row whose order is not below the last sorted row's goes to the end. */
  lemma InsertAtEnd(sorted: seq<PlayerMatch>, x: PlayerMatch)
    requires SortedByOrder(sorted)
    requires |sorted| == 0 || sorted[|sorted| - 1].playerOrder <= x.playerOrder
    ensures InsertByOrder(sorted, x) == sorted + [x]
  {
  }

  /** Rows whose orders already run 1, 2, 3, ... come out of the sort unchanged. */
  lemma {:induction false} SortKeepsNumberedRows(pms: seq<PlayerMatch>)
    requires forall i :: 0 <= i < |pms| ==> pms[i].playerOrder == i + 1
    ensures SortByOrder(pms) == pms
  {
    if |pms| > 0 {
      var n := |pms| - 1;
      var init := pms[..n];
      assert init + [pms[n]] == pms;
      SortKeepsNumberedRows(init);
      InsertAtEnd(init, pms[n]);
    }
  }

  function PlayerIdsOf(pms: seq<PlayerMatch>): (ids: seq<int>)
    ensures |ids| == |pms| && forall i :: 0 <= i < |pms| ==> ids[i] == pms[i].playerId
  {
    seq(|pms|, i requires 0 <= i < |pms| => pms[i].playerId)
  }

  /** The player ids of `pms` in `player_order` order. */
  function SortedIds(pms: seq<PlayerMatch>): (ids: seq<int>)
    ensures |ids| == |pms|
  {
    var sorted := SortByOrder(pms);
    assert |sorted| == |multiset(sorted)| == |pms|;
    PlayerIdsOf(sorted)
  }

  lemma PlayerIdsOfConcat(x: seq<PlayerMatch>, y: seq<PlayerMatch>)
    ensures PlayerIdsOf(x + y) == PlayerIdsOf(x) + PlayerIdsOf(y)
  {
  }

  /** Taking the same row out of two permutations of each other leaves permutations of each other. */
  lemma RemoveMatchingRow(a: seq<PlayerMatch>, b: seq<PlayerMatch>, j: nat)
    requires multiset(a) == multiset(b) && |a| > 0 && j < |b| && b[j] == a[0]
    ensures multiset(a[1..]) == multiset(b[..j] + b[j + 1..])
  {
    assert a == [a[0]] + a[1..];
    assert b == b[..j] + [b[j]] + b[j + 1..];
    assert multiset(a) == multiset{a[0]} + multiset(a[1..]);
    assert multiset(b) == multiset(b[..j]) + multiset{a[0]} + multiset(b[j + 1..]);
    assert multiset(b[..j] + b[j + 1..]) == multiset(b[..j]) + multiset(b[j + 1..]);
    forall y
      ensures multiset(a[1..])[y] == multiset(b[..j] + b[j + 1..])[y]
    {
      assert multiset(a)[y] == multiset{a[0]}[y] + multiset(a[1..])[y];
      assert multiset(b)[y] == multiset(b[..j])[y] + multiset{a[0]}[y] + multiset(b[j + 1..])[y];
    }
  }

  /** Rows that are permutations of each other carry the same player ids, counted with repetition. */
  lemma {:induction false} PermutedRowsKeepIds(a: seq<PlayerMatch>, b: seq<PlayerMatch>)
    requires multiset(a) == multiset(b)
    ensures multiset(PlayerIdsOf(a)) == multiset(PlayerIdsOf(b))
  {
    if |a| == 0 {
      assert |b| == |multiset(b)| == 0;
    } else {
      var x := a[0];
      assert x in multiset(b);
      var j :| 0 <= j < |b| && b[j] == x;
      var left, right := b[..j], b[j + 1..];
      assert b == left + [x] + right;
      assert a == [x] + a[1..];
      RemoveMatchingRow(a, b, j);
      PermutedRowsKeepIds(a[1..], left + right);
      PlayerIdsOfConcat([x], a[1..]);
      PlayerIdsOfConcat(left + [x], right);
      PlayerIdsOfConcat(left, [x]);
      PlayerIdsOfConcat(left, right);
    }
  }

  /**
   * The rotation holds the match's player ids, each as often as it has rows, in the
   * order of the rows sorted by `player_order`.
   */
  lemma SortedIdsFollowOrder(pms: seq<PlayerMatch>)
    ensures |SortByOrder(pms)| == |SortedIds(pms)|
    ensures forall i :: 0 <= i < |SortedIds(pms)| ==> SortedIds(pms)[i] == SortByOrder(pms)[i].playerId
    ensures multiset(SortedIds(pms)) == multiset(PlayerIdsOf(pms))
  {
    PermutedRowsKeepIds(SortByOrder(pms), pms);
  }

  /** Rows numbered 1, 2, 3, ... in the order of `ids` give the rotation `ids`. */
  lemma NumberedRowsRotation(rows: seq<PlayerMatch>, ids: seq<int>, matchId: int)
    requires |rows| == |ids|
    requires forall i :: 0 <= i < |ids| ==> rows[i] == PlayerMatch(ids[i], matchId, i + 1)
    ensures SortedIds(rows) == ids
  {
    SortKeepsNumberedRows(rows);
    assert PlayerIdsOf(rows) == ids;
  }

  class Match {
    const id: int
    const gameType: GameType
    const players: seq<PlayerMatch>   // the `player_matches` relationship, in insertion order
    var status: MatchStatus
    var endTime: Option<int>          // `end_time`; a timestamp is an opaque number here

    /**
     * `Match.create_501_match`: a 501 match, active, whose i-th player (counting from 1)
     * gets `player_order` i. The rows are built one by one as the source's loop does;
     * whether their keys are unique is decided when they are committed.
     */
    constructor Create501(id: int, playerIds: seq<int>)
      ensures this.id == id && gameType == Game501 && status == MatchActive && endTime == None
      ensures |players| == |playerIds|
      ensures forall i :: 0 <= i < |playerIds| ==> players[i] == PlayerMatch(playerIds[i], id, i + 1)
      ensures OrderedPlayerIds() == playerIds
    {
      var rows: seq<PlayerMatch> := [];
      var order := 1;
      while order <= |playerIds|
        invariant 1 <= order <= |playerIds| + 1
        invariant |rows| == order - 1
        invariant forall i :: 0 <= i < |rows| ==> rows[i] == PlayerMatch(playerIds[i], id, i + 1)
      {
        rows := rows + [PlayerMatch(playerIds[order - 1], id, order)];
        order := order + 1;
      }
      this.id := id;
      gameType := Game501;
      players := rows;
      status := MatchActive;
      endTime := None;
      new;
      NumberedRowsRotation(rows, playerIds, id);
    }

    /** The match's player ids sorted by `player_order`: the turn rotation. */
    function OrderedPlayerIds(): (ids: seq<int>)
      ensures |ids| == |players|
    {
      SortedIds(players)
    }

    /** Whether player `p` takes part in this match (the route's `any(pm.player_id == player_id ...)`). */
    predicate HasPlayer(p: int) {
      exists i :: 0 <= i < |players| && players[i].playerId == p
    }

    /** `Match.complete`: status becomes completed and the end time is stamped; nothing else changes. */
    method Complete(now: int)
      modifies this`status, this`endTime
      ensures status == MatchCompleted && endTime == Some(now)
    {
      status := MatchCompleted;
      endTime := Some(now);
    }
  }

  /** `Match.get_by_id`: the match with that primary key, if any. */
  function GetMatchById(matches: seq<Match>, id: int): (r: Option<Match>)
    ensures r.None? <==> forall k :: 0 <= k < |matches| ==> matches[k].id != id
    ensures r.Some? ==> r.value in matches && r.value.id == id
  {
    if |matches| == 0 then None
    else if matches[0].id == id then Some(matches[0])
    else GetMatchById(matches[1..], id)
  }

  /** `Match.get_active_matches`: exactly the matches whose status is active, in stored order. */
  function ActiveMatches(matches: seq<Match>): (r: seq<Match>)
    reads matches
    ensures forall k :: 0 <= k < |r| ==> r[k] in matches && r[k].status == MatchActive
    ensures forall k :: 0 <= k < |matches| && matches[k].status == MatchActive ==> matches[k] in r
    ensures |r| <= |matches|
  {
    if |matches| == 0 then []
    else
      var n := |matches| - 1;
      var rest := ActiveMatches(matches[..n]);
      if matches[n].status == MatchActive then rest + [matches[n]] else rest
  }
}

=== FILE: match_routes.dfy ===
/**
 * The match routes of the HTTP API (app/routes/matches.py): the checks `record_throw`
 * makes before it hands a dart to the engine, the forced move to the next player, the
 * lookup of a match's current leg, and match creation. A request body is a JSON
 * object; a response is a `Result` whose failure carries the HTTP status.
 */
module MatchRoutes {
  import opened Wrappers
  import opened TurnModel
  import opened MatchModel
  import opened LegModel
  import opened ScoringEngine
  import opened EngineProperties

  // ---------------------------------------------------------------------------
  // Request bodies
  // ---------------------------------------------------------------------------

  /** The JSON values a request field can hold. Floats and objects are not modelled. */
  datatype JsonValue =
    | JInt(i: int)
    | JBool(b: bool)
    | JString(s: string)
    | JNull
    | JIntList(items: seq<int>)   // an array of integers

  /**
   * The integer Python sees in a decoded JSON value: `bool` is a subclass of `int`, so
   * `true` and `false` pass `isinstance(v, int)` and compare equal to 1 and 0.
   */
  function AsPyInt(v: JsonValue): (r: Option<int>)
    ensures r.Some? <==> v.JInt? || v.JBool?
    ensures v.JInt? ==> r == Some(v.i)
    ensures v.JBool? ==> r == Some(if v.b then 1 else 0)
  {
    match v
    case JInt(i) => Some(i)
    case JBool(b) => Some(if b then 1 else 0)
    case _ => None
  }

  /** Python's `v in values` for a list of integers. */
  predicate PyIn(v: JsonValue, values: set<int>) {
    AsPyInt(v).Some? && AsPyInt(v).value in values
  }

  const ThrowFields: seq<string> := ["player_id", "segment", "multiplier", "dart_number"]
  const SegmentValues: set<int> := set s | 0 <= s <= 20 :: s
  const MultiplierValues: set<int> := {0, 1, 2, 3}
  const DartNumberValues: set<int> := {1, 2, 3}

  /** The fields of `fields` absent from `data`, in the order of `fields`. */
  function AbsentFields(fields: seq<string>, data: map<string, JsonValue>): (r: seq<string>)
    ensures forall f :: f in r <==> f in fields && f !in data
    ensures r == [] <==> forall f :: f in fields ==> f in data
    ensures |r| <= |fields|
  {
    if |fields| == 0 then []
    else (if fields[0] in data then [] else [fields[0]]) + AbsentFields(fields[1..], data)
  }

  // ---------------------------------------------------------------------------
  // Responses
  // ---------------------------------------------------------------------------

  datatype RouteError =
    | MissingFields(fields: seq<string>)
    | DartNumberNotInteger(value: JsonValue)
    | SegmentOutOfRange(value: JsonValue)
    | MultiplierOutOfRange(value: JsonValue)
    | DartNumberOutOfRange(value: JsonValue)
    | UnknownLeg(legId: int)
    | LegOfOtherMatch(legId: int, matchId: int)
    | UnknownMatch(matchId: int)
    | PlayerNotInMatch(player: JsonValue, matchId: int)
    | ThrowFailed(cause: ThrowError)
    | LegNotInMatch(legId: int, matchId: int)
    | GameStateFailed(why: StateError)
    | CurrentPlayerNotInMatch(playerId: int)
    | NoActiveLeg(matchId: int)
    | NoData
    | PlayerIdsRequired
    | PlayerIdsNotIterable(value: JsonValue)
    | PlayerNotFound(playerId: int)
    | InvalidGameType(value: JsonValue)
    | CricketNotImplemented
    | MatchCreationFailed
  {
    /** The HTTP status of the reply; an exception the route does not catch is a 500 from the framework. */
    function Status(): int {
      match this
      case UnknownLeg(_) => 404
      case UnknownMatch(_) => 404
      case LegNotInMatch(_, _) => 404
      case NoActiveLeg(_) => 404
      case PlayerNotFound(_) => 404
      case ThrowFailed(_) => 500
      case GameStateFailed(_) => 500
      case CurrentPlayerNotInMatch(_) => 500
      case MatchCreationFailed => 500
      case PlayerIdsNotIterable(_) => 500
      case CricketNotImplemented => 501
      case _ => 400
    }
  }

  // ---------------------------------------------------------------------------
  // record_throw
  // ---------------------------------------------------------------------------

  /** A throw request that passed every check, with its values as the engine receives them. */
  datatype ThrowRequest = ThrowRequest(leg: Leg, playerId: int, segment: int, multiplier: int, dartNumber: int)

  /** Every required field of a throw request is present. */
  predicate FieldsPresent(data: map<string, JsonValue>) {
    forall f :: f in ThrowFields ==> f in data
  }

  /** The request's segment, multiplier and dart number pass the route's range checks. */
  predicate ValuesInRange(data: map<string, JsonValue>) {
    && FieldsPresent(data)
    && PyIn(data["segment"], SegmentValues + {25})
    && PyIn(data["multiplier"], MultiplierValues)
    && PyIn(data["dart_number"], DartNumberValues)
  }

  /** The leg with key `legId` exists and belongs to match `matchId`. */
  predicate LegOfMatch(legs: seq<Leg>, matchId: int, legId: int) {
    GetLegById(legs, legId).Some? && GetLegById(legs, legId).value.matchId == matchId
  }

  /**
   * The checks of `record_throw`, in their order: missing fields; a dart number that is
   * not an integer; segment, multiplier and dart number out of range; an unknown leg; a
   * leg of another match; an unknown match; a player who is not in the match. Each
   * refusal is stated under the condition that the checks before it passed, and a
   * request that passes them all is accepted with its values as Python integers.
   */
  function ValidateThrow(legs: seq<Leg>, matches: seq<Match>, matchId: int, legId: int, data: map<string, JsonValue>)
    : (r: Result<ThrowRequest, RouteError>)
    ensures r.Success? ==> FieldsPresent(data)
    ensures r.Success? ==>
      && r.value.leg in legs && r.value.leg.id == legId && r.value.leg.matchId == matchId
      && GetMatchById(matches, matchId).Some? && GetMatchById(matches, matchId).value.HasPlayer(r.value.playerId)
      && Some(r.value.playerId) == AsPyInt(data["player_id"])
      && Some(r.value.segment) == AsPyInt(data["segment"]) && r.value.segment in SegmentValues + {25}
      && Some(r.value.multiplier) == AsPyInt(data["multiplier"]) && r.value.multiplier in MultiplierValues
      && Some(r.value.dartNumber) == AsPyInt(data["dart_number"]) && r.value.dartNumber in DartNumberValues
    ensures !FieldsPresent(data) ==> r == Failure(MissingFields(AbsentFields(ThrowFields, data)))
    ensures FieldsPresent(data) && AsPyInt(data["dart_number"]).None? ==>
              r == Failure(DartNumberNotInteger(data["dart_number"]))
    ensures FieldsPresent(data) && AsPyInt(data["dart_number"]).Some?
            && !PyIn(data["segment"], SegmentValues + {25}) ==>
              r == Failure(SegmentOutOfRange(data["segment"]))
    ensures FieldsPresent(data) && AsPyInt(data["dart_number"]).Some?
            && PyIn(data["segment"], SegmentValues + {25}) && !PyIn(data["multiplier"], MultiplierValues) ==>
              r == Failure(MultiplierOutOfRange(data["multiplier"]))
    ensures FieldsPresent(data) && AsPyInt(data["dart_number"]).Some? && PyIn(data["segment"], SegmentValues + {25})
            && PyIn(data["multiplier"], MultiplierValues) && !PyIn(data["dart_number"], DartNumberValues) ==>
              r == Failure(DartNumberOutOfRange(data["dart_number"]))
    ensures ValuesInRange(data) && GetLegById(legs, legId).None? ==> r == Failure(UnknownLeg(legId))
    ensures ValuesInRange(data) && GetLegById(legs, legId).Some? && GetLegById(legs, legId).value.matchId != matchId ==>
              r == Failure(LegOfOtherMatch(legId, matchId))
    ensures ValuesInRange(data) && LegOfMatch(legs, matchId, legId) && GetMatchById(matches, matchId).None? ==>
              r == Failure(UnknownMatch(matchId))
    ensures ValuesInRange(data) && LegOfMatch(legs, matchId, legId) && GetMatchById(matches, matchId).Some?
            && !(AsPyInt(data["player_id"]).Some?
                 && GetMatchById(matches, matchId).value.HasPlayer(AsPyInt(data["player_id"]).value)) ==>
              r == Failure(PlayerNotInMatch(data["player_id"], matchId))
    ensures ValuesInRange(data) && LegOfMatch(legs, matchId, legId) && GetMatchById(matches, matchId).Some?
            && AsPyInt(data["player_id"]).Some?
            && GetMatchById(matches, matchId).value.HasPlayer(AsPyInt(data["player_id"]).value) ==>
              r == Success(ThrowRequest(GetLegById(legs, legId).value, AsPyInt(data["player_id"]).value,
                                        AsPyInt(data["segment"]).value, AsPyInt(data["multiplier"]).value,
                                        AsPyInt(data["dart_number"]).value))
  {
    var missing := AbsentFields(ThrowFields, data);
    if |missing| > 0 then Failure(MissingFields(missing))
    else
      var playerId, segment, multiplier, dartNumber :=
        data["player_id"], data["segment"], data["multiplier"], data["dart_number"];
      if AsPyInt(dartNumber).None? then Failure(DartNumberNotInteger(dartNumber))
      else if !PyIn(segment, SegmentValues + {25}) then Failure(SegmentOutOfRange(segment))
      else if !PyIn(multiplier, MultiplierValues) then Failure(MultiplierOutOfRange(multiplier))
      else if !PyIn(dartNumber, DartNumberValues) then Failure(DartNumberOutOfRange(dartNumber))
      else match GetLegById(legs, legId)
        case None => Failure(UnknownLeg(legId))
        case Some(leg) =>
          if leg.matchId != matchId then Failure(LegOfOtherMatch(legId, matchId))
          else match GetMatchById(matches, matchId)
            case None => Failure(UnknownMatch(matchId))
            case Some(m) =>
              if !(AsPyInt(playerId).Some? && m.HasPlayer(AsPyInt(playerId).value))
              then Failure(PlayerNotInMatch(playerId, matchId))
              else Success(ThrowRequest(leg, AsPyInt(playerId).value, AsPyInt(segment).value,
                                        AsPyInt(multiplier).value, AsPyInt(dartNumber).value))
  }

  /**
   * `record_throw`: a request the checks refuse changes nothing; otherwise the leg's
   * turns become those the engine commits, and an exception from the engine becomes a
   * 500 with the session rolled back, so nothing changes either.
   */
  method RecordThrow(legs: seq<Leg>, matches: seq<Match>, matchId: int, legId: int, data: map<string, JsonValue>)
    returns (r: Result<ThrowOutcome, RouteError>)
    modifies legs`turns
    ensures match ValidateThrow(legs, matches, matchId, legId, data)
            case Failure(e) =>
              r == Failure(e) && forall k :: 0 <= k < |legs| ==> legs[k].turns == old(legs[k].turns)
            case Success(q) =>
              && (forall k :: 0 <= k < |legs| && legs[k] != q.leg ==> legs[k].turns == old(legs[k].turns))
              && match ThrowResult(old(q.leg.turns), q.playerId, q.segment, q.multiplier, q.dartNumber)
                 case Success(c) => r == Success(c.outcome) && q.leg.turns == c.turns
                 case Failure(e) => r == Failure(ThrowFailed(e)) && q.leg.turns == old(q.leg.turns)
  {
    var v := ValidateThrow(legs, matches, matchId, legId, data);
    if v.Failure? {
      return Failure(v.error);
    }
    var q := v.value;
    var outcome := ProcessThrow(q.leg, q.playerId, q.segment, q.multiplier, q.dartNumber);
    match outcome
    case Success(o) => r := Success(o);
    case Failure(e) => r := Failure(ThrowFailed(e));
  }

  // ---------------------------------------------------------------------------
  // next_player
  // ---------------------------------------------------------------------------

  /** Python's `x or fallback` on a player id: 0 is falsy. */
  function FalsyOr(id: int, fallback: int): int {
    if id == 0 then fallback else id
  }

  /**
   * The step `next_player` takes in the rotation: `current` and the id after it,
   * cyclically; a `current` outside the rotation makes `list.index` raise.
   */
  function RotationStep(ids: seq<int>, current: int): (r: Result<(int, int), RouteError>)
    ensures r.Success? <==> current in ids
    ensures r.Failure? ==> r == Failure(CurrentPlayerNotInMatch(current))
    ensures r.Success? ==>
      && r.value.0 == current && r.value.1 in ids
      && r.value.1 == ids[(IndexOf(ids, current).value + 1) % |ids|]
  {
    match IndexOf(ids, current)
    case None => Failure(CurrentPlayerNotInMatch(current))
    case Some(i) => Success((current, ids[(i + 1) % |ids|]))
  }

  /**
   * `next_player`: the current player the game state names (the leg's starting player
   * when that id is falsy, i.e. 0) and the one after them in `player_order`, cyclically.
   * It changes nothing.
   */
  function NextPlayer(legs: seq<Leg>, matches: seq<Match>, matchId: int, legId: int): (r: Result<(int, int), RouteError>)
    reads legs
    ensures GetLegById(legs, legId).None? || GetLegById(legs, legId).value.matchId != matchId <==>
              r == Failure(LegNotInMatch(legId, matchId))
    ensures GetLegById(legs, legId).Some? && GetLegById(legs, legId).value.matchId == matchId
            && GetCurrentGameState(legs, matches, legId).Failure? ==>
              r == Failure(GameStateFailed(GetCurrentGameState(legs, matches, legId).error))
    ensures LegOfMatch(legs, matchId, legId) && GetCurrentGameState(legs, matches, legId).Success? ==>
              && GetMatchById(matches, matchId).Some?
              && r == RotationStep(GetMatchById(matches, matchId).value.OrderedPlayerIds(),
                                   FalsyOr(GetCurrentGameState(legs, matches, legId).value.currentPlayerId,
                                           GetLegById(legs, legId).value.startingPlayerId))
    ensures r.Success? ==>
      && GetCurrentGameState(legs, matches, legId).Success?
      && var state := GetCurrentGameState(legs, matches, legId).value;
         r.value.0 == (if state.currentPlayerId == 0 then GetLegById(legs, legId).value.startingPlayerId
                       else state.currentPlayerId)
  {
    match GetLegById(legs, legId)
    case None => Failure(LegNotInMatch(legId, matchId))
    case Some(leg) =>
      if leg.matchId != matchId then Failure(LegNotInMatch(legId, matchId))
      else match GetCurrentGameState(legs, matches, legId)
        case Failure(e) => Failure(GameStateFailed(e))
        case Success(state) =>
          // the game state has already found the match
          var ids := GetMatchById(matches, matchId).value.OrderedPlayerIds();
          RotationStep(ids, FalsyOr(state.currentPlayerId, leg.startingPlayerId))
  }

  // ---------------------------------------------------------------------------
  // get_current_leg
  // ---------------------------------------------------------------------------

  /** `get_current_leg`: the game state of the last active leg of the match. */
  function GetCurrentLeg(legs: seq<Leg>, matches: seq<Match>, matchId: int): (r: Result<GameState, RouteError>)
    reads legs
    ensures r == Failure(UnknownMatch(matchId)) <==> GetMatchById(matches, matchId).None?
    ensures GetMatchById(matches, matchId).Some? ==>
              (r == Failure(NoActiveLeg(matchId)) <==>
                 forall k :: 0 <= k < |legs| ==> legs[k].matchId != matchId || legs[k].status != LegActive)
    ensures r.Success? ==>
              exists k :: 0 <= k < |legs| && legs[k].matchId == matchId && legs[k].status == LegActive
                          && GetCurrentGameState(legs, matches, legs[k].id) == Success(r.value)
  {
    match GetMatchById(matches, matchId)
    case None => Failure(UnknownMatch(matchId))
    case Some(_) =>
      var active := ActiveLegsForMatch(legs, matchId);
      if |active| == 0 then Failure(NoActiveLeg(matchId))
      else
        var current := active[|active| - 1];
        match GetCurrentGameState(legs, matches, current.id)
        case Failure(e) => Failure(GameStateFailed(e))
        case Success(state) => Success(state)
  }

  // ---------------------------------------------------------------------------
  // create_match
  // ---------------------------------------------------------------------------

  /** Every id in `ids` is a registered player. */
  predicate AllRegistered(ids: seq<int>, registered: set<int>) {
    forall i :: 0 <= i < |ids| ==> ids[i] in registered
  }

  /** The first id in `ids` that is not a registered player: the one the route's loop stops at. */
  function FirstUnregistered(ids: seq<int>, registered: set<int>): (r: Option<int>)
    ensures r.None? <==> AllRegistered(ids, registered)
    ensures r.Some? ==> r.value in ids && r.value !in registered
    ensures r.Some? ==> forall i :: 0 <= i < IndexOf(ids, r.value).value ==> ids[i] in registered
  {
    if |ids| == 0 then None
    else if ids[0] !in registered then Some(ids[0])
    else FirstUnregistered(ids[1..], registered)
  }

  /** The `game_type` of a request body, `'501'` when absent. */
  function GameTypeOf(data: map<string, JsonValue>): JsonValue {
    if "game_type" in data then data["game_type"] else JString("501")
  }

  /** The player ids a request body names; none when it names no list of them. */
  function RequestedPlayerIds(data: map<string, JsonValue>): seq<int> {
    if "player_ids" in data && data["player_ids"].JIntList? then data["player_ids"].items else []
  }

  /** The body names its players as a JSON array of integers. */
  predicate ListedPlayerIds(data: map<string, JsonValue>) {
    "player_ids" in data && data["player_ids"].JIntList?
  }

  /**
   * The replies `create_match` gives before it creates anything, in the route's order:
   * an empty body; no `player_ids`; a `player_ids` that is a number, a boolean or null,
   * which the `for` loop cannot iterate (a `TypeError` outside the `try`, so a 500 from
   * the framework); the first id that is not a registered player; a game type other
   * than '501' or 'cricket'; and cricket, which is not implemented.
   */
  function CreateMatchRefusal(data: map<string, JsonValue>, registered: set<int>): (r: Option<RouteError>)
    requires "player_ids" in data ==> !data["player_ids"].JString?
    ensures r.None? <==> |data| > 0 && ListedPlayerIds(data) && GameTypeOf(data) == JString("501")
                         && AllRegistered(RequestedPlayerIds(data), registered)
    ensures |data| == 0 ==> r == Some(NoData)
    ensures |data| > 0 && "player_ids" !in data ==> r == Some(PlayerIdsRequired)
    ensures |data| > 0 && "player_ids" in data && !ListedPlayerIds(data) ==>
              r == Some(PlayerIdsNotIterable(data["player_ids"]))
    ensures |data| > 0 && ListedPlayerIds(data) && FirstUnregistered(RequestedPlayerIds(data), registered).Some? ==>
              r == Some(PlayerNotFound(FirstUnregistered(RequestedPlayerIds(data), registered).value))
    ensures |data| > 0 && ListedPlayerIds(data) && FirstUnregistered(RequestedPlayerIds(data), registered).None?
            && GameTypeOf(data) != JString("501") && GameTypeOf(data) != JString("cricket") ==>
              r == Some(InvalidGameType(GameTypeOf(data)))
    ensures |data| > 0 && ListedPlayerIds(data) && FirstUnregistered(RequestedPlayerIds(data), registered).None?
            && GameTypeOf(data) == JString("cricket") ==>
              r == Some(CricketNotImplemented)
    ensures r.Some? ==> r.value.NoData? || r.value.PlayerIdsRequired? || r.value.PlayerIdsNotIterable?
                        || r.value.PlayerNotFound? || r.value.InvalidGameType? || r.value.CricketNotImplemented?
  {
    if |data| == 0 then Some(NoData)
    else if "player_ids" !in data then Some(PlayerIdsRequired)
    else if !data["player_ids"].JIntList? then Some(PlayerIdsNotIterable(data["player_ids"]))
    else match FirstUnregistered(RequestedPlayerIds(data), registered)
      case Some(p) => Some(PlayerNotFound(p))
      case None =>
        var gameType := GameTypeOf(data);
        if gameType != JString("501") && gameType != JString("cricket") then Some(InvalidGameType(gameType))
        else if gameType == JString("cricket") then Some(CricketNotImplemented)
        else None
  }

  /**
   * The statuses of `create_match`'s refusals: 404 for an unknown player, 500 for a
   * `player_ids` that cannot be iterated, 501 for cricket, and 400 for the rest.
   */
  lemma CreateMatchRefusalStatus(data: map<string, JsonValue>, registered: set<int>)
    requires "player_ids" in data ==> !data["player_ids"].JString?
    ensures var r := CreateMatchRefusal(data, registered);
      r.Some? ==> && (r.value.Status() == 404 <==> r.value.PlayerNotFound?)
                  && (r.value.Status() == 500 <==> r.value.PlayerIdsNotIterable?)
                  && (r.value.Status() == 501 <==> r.value.CricketNotImplemented?)
                  && r.value.Status() in {400, 404, 500, 501}
  {
  }

  /** A created match and its first leg. */
  datatype Created = Created(match_: Match, firstLeg: Leg)

  /**
   * `create_match` on the stores of matches and legs. A body the checks refuse creates
   * nothing (a `player_ids` string is not modelled). A player named twice makes the commit fail on the (player, match) key: a
   * 500, with nothing created. An empty `player_ids` commits the match and then fails
   * on `player_ids[0]`: a 500, and the match without players stays. Otherwise the
   * match and its first leg, started by the first player named, are created.
   * `newMatchId` and `newLegId` are the keys the database assigns.
   */
  method CreateMatch(data: map<string, JsonValue>, registered: set<int>, matches: seq<Match>, legs: seq<Leg>,
                     newMatchId: int, newLegId: int)
    returns (r: Result<Created, RouteError>, matchesAfter: seq<Match>, legsAfter: seq<Leg>)
    requires "player_ids" in data ==> !data["player_ids"].JString?
    ensures CreateMatchRefusal(data, registered).Some? ==>
              r == Failure(CreateMatchRefusal(data, registered).value) && matchesAfter == matches && legsAfter == legs
    ensures CreateMatchRefusal(data, registered).None? && !Distinct(RequestedPlayerIds(data)) ==>
              r == Failure(MatchCreationFailed) && matchesAfter == matches && legsAfter == legs
    ensures CreateMatchRefusal(data, registered).None? && |RequestedPlayerIds(data)| == 0 ==>
              && r == Failure(MatchCreationFailed) && legsAfter == legs
              && |matchesAfter| == |matches| + 1 && matchesAfter[..|matches|] == matches
              && fresh(matchesAfter[|matches|]) && matchesAfter[|matches|].id == newMatchId
              && matchesAfter[|matches|].players == []
              && matchesAfter[|matches|].gameType == Game501 && matchesAfter[|matches|].status == MatchActive
              && matchesAfter[|matches|].endTime == None
    ensures CreateMatchRefusal(data, registered).None? && Distinct(RequestedPlayerIds(data)) && |RequestedPlayerIds(data)| > 0 ==>
              && r.Success? && matchesAfter == matches + [r.value.match_] && legsAfter == legs + [r.value.firstLeg]
              && fresh(r.value.match_) && r.value.match_.id == newMatchId
              && r.value.match_.gameType == Game501 && r.value.match_.status == MatchActive
              && r.value.match_.endTime == None
              && r.value.match_.OrderedPlayerIds() == RequestedPlayerIds(data)
              && UniqueKeys(r.value.match_.players)
              && fresh(r.value.firstLeg) && r.value.firstLeg.id == newLegId
              && r.value.firstLeg.matchId == newMatchId
              && r.value.firstLeg.legNumber == CountLegsOfMatch(legs, newMatchId) + 1
              && r.value.firstLeg.startingPlayerId == RequestedPlayerIds(data)[0]
              && r.value.firstLeg.status == LegActive && r.value.firstLeg.turns == []
              && r.value.firstLeg.winningPlayerId == None && r.value.firstLeg.endTime == None
  {
    var refusal := CreateMatchRefusal(data, registered);
    if refusal.Some? {
      return Failure(refusal.value), matches, legs;
    }
    var ids := RequestedPlayerIds(data);
    if !Distinct(ids) {
      // The commit fails on the duplicate (player, match) key and is rolled back.
      return Failure(MatchCreationFailed), matches, legs;
    }
    var m := new Match.Create501(newMatchId, ids);
    matchesAfter := matches + [m];
    if |ids| == 0 {
      // The match is already committed when `player_ids[0]` raises.
      return Failure(MatchCreationFailed), matchesAfter, legs;
    }
    assert matchesAfter[|matches|] == m;
    var started := StartNewLeg(matchesAfter, legs, newMatchId, ids[0], newLegId);
    match started
    case Failure(_) =>
      assert false;
    case Success(leg) =>
      r := Success(Created(m, leg));
      legsAfter := legs + [leg];
  }

  // ---------------------------------------------------------------------------
  // Properties of the routes
  // ---------------------------------------------------------------------------

  /**
   * A refused throw request is answered 404 exactly for an unknown leg or match and 400
   * otherwise; a request that is missing fields is answered with those, whatever else
   * is wrong with it.
   */
  lemma ThrowRefusalStatus(legs: seq<Leg>, matches: seq<Match>, matchId: int, legId: int, data: map<string, JsonValue>)
    ensures var r := ValidateThrow(legs, matches, matchId, legId, data);
      && (r.Failure? ==> r.error.Status() in {400, 404})
      && (r.Failure? ==> (r.error.Status() == 404 <==> r.error.UnknownLeg? || r.error.UnknownMatch?))
      && (r.Failure? && r.error.UnknownLeg? ==> GetLegById(legs, legId).None?)
      && (r.Failure? && r.error.UnknownMatch? ==> GetMatchById(matches, matchId).None?)
      && (forall f :: f in ThrowFields && f !in data ==> r == Failure(MissingFields(AbsentFields(ThrowFields, data))))
  {
  }

  /**
   * A request the route accepts passes the engine's own range checks, so the engine can
   * only refuse it as a repeated dart number.
   */
  lemma AcceptedThrowOnlyFailsAsDuplicate(legs: seq<Leg>, matches: seq<Match>, matchId: int, legId: int,
                                          data: map<string, JsonValue>, turns: seq<Turn>)
    requires ValidateThrow(legs, matches, matchId, legId, data).Success?
    ensures var q := ValidateThrow(legs, matches, matchId, legId, data).value;
      && CheckDart(q.dartNumber, q.segment, q.multiplier).None?
      && (ThrowResult(turns, q.playerId, q.segment, q.multiplier, q.dartNumber).Failure? ==>
            ThrowResult(turns, q.playerId, q.segment, q.multiplier, q.dartNumber).error == DuplicateDart(q.dartNumber))
  {
  }

  /** `true` passes as dart number 1 and `false` as segment 0: JSON booleans are Python integers. */
  lemma BooleansPassAsIntegers(legs: seq<Leg>, matches: seq<Match>, matchId: int, legId: int, player: int)
    requires GetLegById(legs, legId).Some? && GetLegById(legs, legId).value.matchId == matchId
    requires GetMatchById(matches, matchId).Some? && GetMatchById(matches, matchId).value.HasPlayer(player)
    ensures var data := map["player_id" := JInt(player), "segment" := JBool(false),
                             "multiplier" := JInt(1), "dart_number" := JBool(true)];
      ValidateThrow(legs, matches, matchId, legId, data)
        == Success(ThrowRequest(GetLegById(legs, legId).value, player, 0, 1, 1))
  {
  }

  /**
   * `get_current_leg` reports the game state of the active leg of the match that is
   * stored last (the route's `active_legs[-1]`).
   */
  lemma CurrentLegIsStoredLast(legs: seq<Leg>, matches: seq<Match>, matchId: int, k: nat)
    requires GetMatchById(matches, matchId).Some?
    requires k < |legs| && ActiveIn(legs[k], matchId)
    requires forall j :: k < j < |legs| ==> !ActiveIn(legs[j], matchId)
    ensures GetCurrentGameState(legs, matches, legs[k].id).Success? ==>
              GetCurrentLeg(legs, matches, matchId) == Success(GetCurrentGameState(legs, matches, legs[k].id).value)
    ensures GetCurrentGameState(legs, matches, legs[k].id).Failure? ==>
              GetCurrentLeg(legs, matches, matchId) == Failure(GameStateFailed(GetCurrentGameState(legs, matches, legs[k].id).error))
  {
    LastActiveLegIsStoredLast(legs, matchId, k);
  }

  /** With at least two distinct players in the match, `next_player` never names the current player again. */
  lemma NextPlayerIsSomeoneElse(legs: seq<Leg>, matches: seq<Match>, matchId: int, legId: int)
    requires NextPlayer(legs, matches, matchId, legId).Success?
    requires Distinct(GetMatchById(matches, matchId).value.OrderedPlayerIds())
    requires |GetMatchById(matches, matchId).value.OrderedPlayerIds()| >= 2
    ensures NextPlayer(legs, matches, matchId, legId).value.1 != NextPlayer(legs, matches, matchId, legId).value.0
  {
    var ids := GetMatchById(matches, matchId).value.OrderedPlayerIds();
    var current := NextPlayer(legs, matches, matchId, legId).value.0;
    SuccessorIsOther(ids, IndexOf(ids, current).value);
  }

  /**
   * In a two-player match, forcing the move after a turn that is over (three darts or a
   * bust) names as next the player whose turn just ended: the game state has already
   * moved on, and `next_player` moves on once more.
   */
  lemma ForcedMoveAfterClosedTurnReturns(legs: seq<Leg>, matches: seq<Match>, matchId: int, legId: int)
    requires GetLegById(legs, legId).Some? && GetLegById(legs, legId).value.matchId == matchId
    requires GetMatchById(matches, matchId).Some?
    requires var turns := GetLegById(legs, legId).value.turns;
      WellFormed(turns) && |turns| > 0 && (turns[|turns| - 1].dartsThrown == 3 || turns[|turns| - 1].isBust)
    requires var ids := GetMatchById(matches, matchId).value.OrderedPlayerIds();
      var turns := GetLegById(legs, legId).value.turns;
      Distinct(ids) && |ids| == 2 && turns[|turns| - 1].playerId in ids && 0 !in ids
    ensures var turns := GetLegById(legs, legId).value.turns;
      && NextPlayer(legs, matches, matchId, legId).Success?
      && NextPlayer(legs, matches, matchId, legId).value.0 != turns[|turns| - 1].playerId
      && NextPlayer(legs, matches, matchId, legId).value.1 == turns[|turns| - 1].playerId
  {
    var leg := GetLegById(legs, legId).value;
    var ids := GetMatchById(matches, matchId).value.OrderedPlayerIds();
    var i := IndexOf(ids, leg.turns[|leg.turns| - 1].playerId).value;
    NextPlayerAfterClosedTurn(leg.turns, leg.startingPlayerId, ids);
    var q := ids[(i + 1) % 2];
    assert GetCurrentGameState(legs, matches, legId).value.currentPlayerId == q;
    assert IndexOf(ids, q).value == (i + 1) % 2;
  }
}

=== FILE: scoring_engine.dfy ===
/**
 * The 501 scoring engine (app/services/scoring_engine.py).
 *
 * Each engine operation is given twice: a function that states what the operation
 * commits (its specification), and a method that does it step by step on a `Leg`
 * object, proved to commit exactly that. An operation that raises commits nothing.
 */
module ScoringEngine {
  import opened Wrappers
  import opened ThrowModel
  import opened TurnModel
  import opened MatchModel
  import opened LegModel

  const StartingScore501: int := 501

  // ---------------------------------------------------------------------------
  // Point rule and the bust / checkout predicates
  // ---------------------------------------------------------------------------

  /**
   * `calculate_points`: a miss scores nothing whatever the multiplier, the bull scores
   * 25 as a single and 50 with ANY other multiplier (0 and 3 included), and every
   * other segment scores segment times multiplier.
   */
  function CalculatePoints(segment: int, multiplier: int): (points: int)
    ensures segment == 0 ==> points == 0
    ensures ValidSegment(segment) && ValidMultiplier(multiplier) ==> 0 <= points <= 60
  {
    if segment == 0 then 0
    else if segment == 25 then (if multiplier == 1 then 25 else 50)
    else segment * multiplier
  }

  /** `is_valid_checkout`: the dart takes the score exactly to zero with a double (the bull branch asks the same). */
  function IsValidCheckout(remainingScore: int, points: int, multiplier: int, segment: int): (ok: bool)
    ensures ok <==> remainingScore == points && multiplier == 2
  {
    if remainingScore == points then
      if segment == 25 then multiplier == 2 else multiplier == 2
    else false
  }

  /** `is_bust`: the new score falls below 2; the second disjunct adds nothing, since 0 < 2. */
  function IsBust(remainingScore: int, points: int): (bust: bool)
    ensures bust <==> remainingScore - points < 2
  {
    var newScore := remainingScore - points;
    newScore < 2 || (newScore == 0 && remainingScore != points)
  }

  /**
   * The bust test `process_throw` applies inline. It is `is_bust` again: the clause
   * about a non-double zero can never change the verdict, so reaching exactly zero,
   * even with a double, is a bust.
   */
  function DartBusts(remainingScore: int, points: int, segment: int, multiplier: int): (bust: bool)
    ensures bust <==> IsBust(remainingScore, points)
    ensures remainingScore == points ==> bust
  {
    var newRemaining := remainingScore - points;
    newRemaining < 2 || (newRemaining == 0 && multiplier != 2 && segment != 25)
  }

  // ---------------------------------------------------------------------------
  // A player's score, recomputed from the leg's history
  // ---------------------------------------------------------------------------

  /** Sum of `score` over the player's turns that are not flagged as bust. */
  function NonBustTotal(turns: seq<Turn>, playerId: int): int
    decreases |turns|
  {
    if |turns| == 0 then 0
    else
      var n := |turns| - 1;
      NonBustTotal(turns[..n], playerId)
        + (if turns[n].playerId == playerId && !turns[n].isBust then turns[n].score else 0)
  }

  /** 501 minus the player's non-bust turn scores. */
  function PlayerScore(turns: seq<Turn>, playerId: int): int {
    StartingScore501 - NonBustTotal(turns, playerId)
  }

  /**
   * `get_player_current_score` (and the same loop inside `process_throw`): start at
   * 501 and subtract the score of each of the player's non-bust turns.
   */
  method GetPlayerCurrentScore(leg: Leg, playerId: int) returns (total: int)
    ensures total == PlayerScore(leg.turns, playerId)
  {
    total := StartingScore501;
    var i := 0;
    while i < |leg.turns|
      invariant 0 <= i <= |leg.turns|
      invariant total == StartingScore501 - NonBustTotal(leg.turns[..i], playerId)
    {
      assert leg.turns[..i + 1][..i] == leg.turns[..i];
      if leg.turns[i].playerId == playerId && !leg.turns[i].isBust {
        total := total - leg.turns[i].score;
      }
      i := i + 1;
    }
    assert leg.turns[..i] == leg.turns;
  }

  // ---------------------------------------------------------------------------
  // process_throw
  // ---------------------------------------------------------------------------

  datatype ThrowError =
    | InvalidDartNumber(dartNumber: int)
    | InvalidSegment(segment: int)
    | InvalidMultiplier(multiplier: int)
    | DuplicateDart(dartNumber: int)

  /** What `process_throw` returns: the dictionary's six entries. */
  datatype ThrowOutcome = ThrowOutcome(
    gameCompleted: bool,
    isBust: bool,
    isCheckout: bool,
    remainingScore: int,
    thrown: Throw,
    turn: Turn)

  /** A committed throw: the leg's turns afterwards, and what the call returned. */
  datatype Committed = Committed(turns: seq<Turn>, outcome: ThrowOutcome)

  /** The three input checks, in the order the engine makes them. */
  function CheckDart(dartNumber: int, segment: int, multiplier: int): (e: Option<ThrowError>)
    ensures e.None? <==> ValidDartNumber(dartNumber) && ValidSegment(segment) && ValidMultiplier(multiplier)
    ensures !ValidDartNumber(dartNumber) ==> e == Some(InvalidDartNumber(dartNumber))
    ensures ValidDartNumber(dartNumber) && !ValidSegment(segment) ==> e == Some(InvalidSegment(segment))
    ensures ValidDartNumber(dartNumber) && ValidSegment(segment) && !ValidMultiplier(multiplier) ==>
              e == Some(InvalidMultiplier(multiplier))
  {
    if dartNumber !in {1, 2, 3} then Some(InvalidDartNumber(dartNumber))
    else if !(0 <= segment <= 20 || segment == 25) then Some(InvalidSegment(segment))
    else if multiplier !in {0, 1, 2, 3} then Some(InvalidMultiplier(multiplier))
    else None
  }

  /**
   * The existing turn the dart goes into: the turn `get_last_turn_for_leg` finds, when it
   * is the same player's. `None` means a new turn is created.
   */
  function TargetTurn(turns: seq<Turn>, playerId: int): (r: Option<nat>)
    ensures r.Some? ==> r == LastTurnForLeg(turns) && turns[r.value].playerId == playerId
    ensures r.None? <==> LastTurnForLeg(turns).None? || turns[LastTurnForLeg(turns).value].playerId != playerId
  {
    match LastTurnForLeg(turns)
    case None => None
    case Some(k) =>
      // the `darts_thrown >= 3` test can never succeed: the lookup only finds unfinished turns
      if turns[k].dartsThrown >= 3 || turns[k].playerId != playerId then None else Some(k)
  }

  /** The turn as it stands before the dart: the target turn, or a fresh one starting from the recomputed score. */
  function OpeningTurn(turns: seq<Turn>, playerId: int): Turn {
    match TargetTurn(turns, playerId)
    case Some(k) => turns[k]
    case None => CreateForLeg(playerId, NextTurnNumber(turns), PlayerScore(turns, playerId))
  }

  datatype Scored = Scored(turn: Turn, thrown: Throw, bust: bool)

  /**
   * Lines 157-216 on one turn: score the dart against the turn's remaining score; a bust
   * flags dart and turn and zeroes the turn's score, leaving its remaining score alone;
   * otherwise the points are added and the remaining score lowered. The dart is counted
   * and its row added either way.
   */
  function ScoreDart(turn: Turn, dartNumber: int, segment: int, multiplier: int): Scored {
    var points := CalculatePoints(segment, multiplier);
    var bust := DartBusts(turn.remainingScore, points, segment, multiplier);
    var thrown := Throw(dartNumber, segment, multiplier, points, bust, false);
    var after :=
      if bust then turn.(isBust := true, score := 0)
      else turn.(score := turn.score + points, remainingScore := turn.remainingScore - points);
    Scored(after.(dartsThrown := after.dartsThrown + 1, throws := after.throws + [thrown]), thrown, bust)
  }

  /** What `process_throw` commits on the leg's turns, or the error it raises. */
  function ThrowResult(turns: seq<Turn>, playerId: int, segment: int, multiplier: int, dartNumber: int)
    : Result<Committed, ThrowError>
  {
    match CheckDart(dartNumber, segment, multiplier)
    case Some(e) => Failure(e)
    case None =>
      var opening := OpeningTurn(turns, playerId);
      if HasDartNumber(opening.throws, dartNumber) then Failure(DuplicateDart(dartNumber))
      else
        var s := ScoreDart(opening, dartNumber, segment, multiplier);
        var after := match TargetTurn(turns, playerId)
          case Some(k) => turns[k := s.turn]
          case None => turns + [s.turn];
        Success(Committed(after, ThrowOutcome(s.turn.isCheckout, s.bust, s.thrown.isCheckout,
                                              s.turn.remainingScore, s.thrown, s.turn)))
  }

  /**
   * Lines 79-133: find the turn `get_last_turn_for_leg` returns and keep it when it is
   * this player's; otherwise build a new turn numbered after every turn of the leg,
   * starting from the player's recomputed score.
   */
  method GetOrCreateTurn(leg: Leg, playerId: int) returns (turn: Turn, needNewTurn: bool)
    ensures needNewTurn <==> TargetTurn(leg.turns, playerId).None?
    ensures turn == OpeningTurn(leg.turns, playerId)
  {
    var last := LastTurnForLeg(leg.turns);
    needNewTurn := false;
    if last.None? {
      needNewTurn := true;
    } else if leg.turns[last.value].dartsThrown >= 3 {
      needNewTurn := true;   // never taken: the lookup only finds unfinished turns
    } else if leg.turns[last.value].playerId != playerId {
      needNewTurn := true;
    }
    if needNewTurn {
      var turnNumber := NextTurnNumber(leg.turns);
      var current := GetPlayerCurrentScore(leg, playerId);
      turn := Turn(playerId, turnNumber, 0, current, 0, false, false, []);
    } else {
      turn := leg.turns[last.value];
    }
  }

  /**
   * Lines 157-216: score the dart against the turn, flag a bust, and count the dart.
   */
  method ApplyDart(turn: Turn, dartNumber: int, segment: int, multiplier: int)
    returns (after: Turn, thrown: Throw, isBust: bool)
    ensures Scored(after, thrown, isBust) == ScoreDart(turn, dartNumber, segment, multiplier)
  {
    after := turn;
    var points := CalculatePoints(segment, multiplier);
    var newRemaining := after.remainingScore - points;
    isBust := newRemaining < 2 || (newRemaining == 0 && multiplier != 2 && segment != 25);
    thrown := Throw(dartNumber, segment, multiplier, points, isBust, false);
    if isBust {
      thrown := thrown.(isBust := true);
      after := after.(isBust := true, score := 0);
    } else {
      after := after.(score := after.score + points, remainingScore := newRemaining);
      // The checkout branch (a zero reached on a double) cannot be entered here.
      assert newRemaining != 0;
    }
    after := after.(dartsThrown := after.dartsThrown + 1, throws := after.throws + [thrown]);
  }

  /**
   * `process_throw`, step by step on the leg. On success the leg's turns are those
   * `ThrowResult` commits; when it raises, the leg is left as it was (the caller's
   * rollback). The leg's status is never consulted: a completed leg takes darts too.
   */
  method ProcessThrow(leg: Leg, playerId: int, segment: int, multiplier: int, dartNumber: int)
    returns (r: Result<ThrowOutcome, ThrowError>)
    modifies leg`turns
    ensures match ThrowResult(old(leg.turns), playerId, segment, multiplier, dartNumber)
            case Success(c) => r == Success(c.outcome) && leg.turns == c.turns
            case Failure(e) => r == Failure(e) && leg.turns == old(leg.turns)
  {
    if dartNumber !in {1, 2, 3} {
      return Failure(InvalidDartNumber(dartNumber));
    }
    if !(0 <= segment <= 20 || segment == 25) {
      return Failure(InvalidSegment(segment));
    }
    if multiplier !in {0, 1, 2, 3} {
      return Failure(InvalidMultiplier(multiplier));
    }

    var turn, needNewTurn := GetOrCreateTurn(leg, playerId);

    // Refuse a second dart with the same number in this turn.
    if HasDartNumber(turn.throws, dartNumber) {
      return Failure(DuplicateDart(dartNumber));
    }

    // A dart number other than darts_thrown + 1 is only logged.
    var thrown, isBust;
    turn, thrown, isBust := ApplyDart(turn, dartNumber, segment, multiplier);

    if needNewTurn {
      leg.turns := leg.turns + [turn];
    } else {
      leg.turns := leg.turns[TargetTurn(leg.turns, playerId).value := turn];
    }
    r := Success(ThrowOutcome(turn.isCheckout, isBust, thrown.isCheckout, turn.remainingScore, thrown, turn));
  }

  // ---------------------------------------------------------------------------
  // undo_last_throw
  // ---------------------------------------------------------------------------

  /** What `undo_last_throw` returns when it undoes something. */
  datatype UndoOutcome = UndoOutcome(
    throwRemoved: Throw,
    turnRemoved: bool,
    remainingScore: int,
    turn: Option<Turn>)   // the updated turn, when it was kept

  /** A committed undo: the leg's turns afterwards, whether the leg was reset to active, and the reply. */
  datatype Undone = Undone(turns: seq<Turn>, reopensLeg: bool, outcome: UndoOutcome)

  /**
   * Lines 271-295 on one turn: drop throw `j`, count one dart fewer, and reverse the
   * throw's effect: a bust throw only clears the turn's bust flag; a checkout throw
   * clears the checkout flag and gives its points back; any other throw gives its
   * points back.
   */
  function UnscoreDart(turn: Turn, j: nat): (t: Turn)
    requires j < |turn.throws|
  {
    var thrown := turn.throws[j];
    var t := turn.(throws := RemoveAt(turn.throws, j), dartsThrown := turn.dartsThrown - 1);
    if thrown.isBust then t.(isBust := false)
    else if thrown.isCheckout then
      t.(isCheckout := false, score := t.score - thrown.points, remainingScore := t.remainingScore + thrown.points)
    else t.(score := t.score - thrown.points, remainingScore := t.remainingScore + thrown.points)
  }

  /**
   * What `undo_last_throw` commits, or `None` when it finds no unfinished turn or that
   * turn has no throws. A turn left with no darts is deleted, and the reply's remaining
   * score then adds the throw's points once more.
   */
  function UndoResult(turns: seq<Turn>): Option<Undone> {
    match LastTurnForLeg(turns)
    case None => None
    case Some(k) =>
      match LastThrowForTurn(turns[k].throws)
      case None => None
      case Some(j) =>
        var thrown := turns[k].throws[j];
        var t := UnscoreDart(turns[k], j);
        var reopens := !thrown.isBust && thrown.isCheckout;
        if t.dartsThrown == 0 then
          Some(Undone(RemoveAt(turns, k), reopens,
                      UndoOutcome(thrown, true, t.remainingScore + thrown.points, None)))
        else
          Some(Undone(turns[k := t], reopens, UndoOutcome(thrown, false, t.remainingScore, Some(t))))
  }

  /**
   * `undo_last_throw`, step by step on the leg: the turns become those `UndoResult`
   * commits, and undoing a checkout throw resets the leg to active with no winner and
   * no end time. When there is nothing to undo the leg is untouched.
   */
  method UndoLastThrow(leg: Leg) returns (r: Option<UndoOutcome>)
    modifies leg`turns, leg`status, leg`winningPlayerId, leg`endTime
    ensures match UndoResult(old(leg.turns))
            case None =>
              r == None && leg.turns == old(leg.turns) && leg.status == old(leg.status)
              && leg.winningPlayerId == old(leg.winningPlayerId) && leg.endTime == old(leg.endTime)
            case Some(u) =>
              && r == Some(u.outcome) && leg.turns == u.turns
              && (u.reopensLeg ==> leg.status == LegActive && leg.winningPlayerId == None && leg.endTime == None)
              && (!u.reopensLeg ==> leg.status == old(leg.status) && leg.winningPlayerId == old(leg.winningPlayerId)
                                    && leg.endTime == old(leg.endTime))
  {
    var last := LastTurnForLeg(leg.turns);
    if last.None? {
      return None;
    }
    var k := last.value;
    var turn := leg.turns[k];
    var lastThrow := LastThrowForTurn(turn.throws);
    if lastThrow.None? {
      return None;
    }
    var j := lastThrow.value;
    var thrown := turn.throws[j];

    turn := turn.(throws := RemoveAt(turn.throws, j));
    turn := turn.(dartsThrown := turn.dartsThrown - 1);
    if thrown.isBust {
      turn := turn.(isBust := false);
    } else if thrown.isCheckout {
      turn := turn.(isCheckout := false, score := turn.score - thrown.points,
                    remainingScore := turn.remainingScore + thrown.points);
      leg.status := LegActive;
      leg.winningPlayerId := None;
      leg.endTime := None;
    } else {
      turn := turn.(score := turn.score - thrown.points, remainingScore := turn.remainingScore + thrown.points);
    }

    if turn.dartsThrown == 0 {
      leg.turns := RemoveAt(leg.turns, k);
      return Some(UndoOutcome(thrown, true, turn.remainingScore + thrown.points, None));
    }
    leg.turns := leg.turns[k := turn];
    r := Some(UndoOutcome(thrown, false, turn.remainingScore, Some(turn)));
  }

  // ---------------------------------------------------------------------------
  // start_new_leg and get_current_game_state
  // ---------------------------------------------------------------------------

  datatype LegError = MatchNotFound(matchId: int)

  /**
   * `start_new_leg`: raises for an unknown match; otherwise creates an active leg of
   * that match numbered one past the legs it already has. `newLegId` is the key the
   * database assigns.
   */
  method StartNewLeg(matches: seq<Match>, legs: seq<Leg>, matchId: int, startingPlayerId: int, newLegId: int)
    returns (r: Result<Leg, LegError>)
    ensures r.Failure? <==> GetMatchById(matches, matchId).None?
    ensures r.Failure? ==> r.error == MatchNotFound(matchId)
    ensures r.Success? ==> && fresh(r.value) && r.value.id == newLegId && r.value.matchId == matchId
                           && r.value.legNumber == CountLegsOfMatch(legs, matchId) + 1
                           && r.value.startingPlayerId == startingPlayerId
                           && r.value.status == LegActive && r.value.winningPlayerId == None
                           && r.value.endTime == None && r.value.turns == []
  {
    var m := GetMatchById(matches, matchId);
    if m.None? {
      return Failure(MatchNotFound(matchId));
    }
    var legNumber := CountLegsOfMatch(legs, matchId) + 1;
    var leg := new Leg.CreateForMatch(newLegId, matchId, legNumber, startingPlayerId);
    r := Success(leg);
  }

  datatype StateError =
    | LegNotFound(legId: int)
    | MatchMissing(matchId: int)
    | PlayerNotInRotation(playerId: int)

  /** The read-only projection `get_current_game_state` returns. */
  datatype GameState = GameState(
    currentPlayerId: int,
    currentTurn: Option<Turn>,
    turns: seq<Turn>,
    gameType: GameType)

  /**
   * Whose throw it is, and the current turn if one is open: the leg's starting player
   * when there are no turns; the player of the highest-numbered turn while that turn
   * has fewer than 3 darts and neither flag; otherwise the next player in `rotation`,
   * cyclically. Raises when that turn's player is not in the rotation.
   */
  function CurrentPlayer(turns: seq<Turn>, startingPlayerId: int, rotation: seq<int>)
    : (r: Result<(int, Option<Turn>), StateError>)
    ensures r.Success? && r.value.1.Some? ==>
              && r.value.1.value in turns && r.value.0 == r.value.1.value.playerId
              && r.value.1.value.dartsThrown < 3 && !r.value.1.value.isBust && !r.value.1.value.isCheckout
    ensures r.Success? && r.value.1.None? && |turns| > 0 ==> r.value.0 in rotation
    ensures r.Failure? ==> |turns| > 0 && r.error.PlayerNotInRotation? && r.error.playerId !in rotation
  {
    if |turns| == 0 then Success((startingPlayerId, None))
    else
      var last := turns[Highest(turns, false).value];
      if last.dartsThrown < 3 && !last.isBust && !last.isCheckout then Success((last.playerId, Some(last)))
      else match IndexOf(rotation, last.playerId)
        case None => Failure(PlayerNotInRotation(last.playerId))
        case Some(i) => Success((rotation[(i + 1) % |rotation|], None))
  }

  /** `get_current_game_state`: the leg's turns and whose throw it is, for the leg with key `legId`. */
  function GetCurrentGameState(legs: seq<Leg>, matches: seq<Match>, legId: int): (r: Result<GameState, StateError>)
    reads legs
    ensures GetLegById(legs, legId).None? <==> r == Failure(LegNotFound(legId))
    ensures GetLegById(legs, legId).Some? && GetMatchById(matches, GetLegById(legs, legId).value.matchId).None? ==>
              r == Failure(MatchMissing(GetLegById(legs, legId).value.matchId))
    ensures r.Success? ==>
              && GetLegById(legs, legId).Some?
              && var leg := GetLegById(legs, legId).value;
                 && GetMatchById(matches, leg.matchId).Some?
                 && var m := GetMatchById(matches, leg.matchId).value;
                    && r.value.turns == leg.turns && r.value.gameType == m.gameType
                    && CurrentPlayer(leg.turns, leg.startingPlayerId, m.OrderedPlayerIds())
                         == Success((r.value.currentPlayerId, r.value.currentTurn))
  {
    match GetLegById(legs, legId)
    case None => Failure(LegNotFound(legId))
    case Some(leg) =>
      match GetMatchById(matches, leg.matchId)
      case None => Failure(MatchMissing(leg.matchId))
      case Some(m) =>
        match CurrentPlayer(leg.turns, leg.startingPlayerId, m.OrderedPlayerIds())
        case Failure(e) => Failure(e)
        case Success(p) => Success(GameState(p.0, p.1, leg.turns, m.gameType))
  }
}

=== FILE: throw_model.dfy ===
/**
 * The `throws` table (app/models/throw.py): one row per dart inside a turn.
 * A throw is a value owned by its turn; its `turn_id` is implicit in where it sits.
 */
module ThrowModel {
  import opened Wrappers

  datatype Throw = Throw(
    dartNumber: int,   // position in the turn: 1, 2 or 3
    segment: int,      // 0 (miss), 1..20, or 25 (bull)
    multiplier: int,   // 0 miss, 1 single, 2 double, 3 treble
    points: int,
    isBust: bool,
    isCheckout: bool)

  /** The documented column domains. */
  predicate ValidDartNumber(n: int) { 1 <= n <= 3 }
  predicate ValidSegment(s: int) { 0 <= s <= 20 || s == 25 }
  predicate ValidMultiplier(m: int) { 0 <= m <= 3 }

  /**
   * `Throw.create_for_turn`: computes the points with its own copy of the point rule
   * and stores the dart with both flags at their `False` defaults.
   */
  function CreateForTurn(dartNumber: int, segment: int, multiplier: int): (t: Throw)
    ensures t.dartNumber == dartNumber && t.segment == segment && t.multiplier == multiplier
    ensures !t.isBust && !t.isCheckout
    ensures segment == 0 ==> t.points == 0
    ensures ValidSegment(segment) && ValidMultiplier(multiplier) ==> 0 <= t.points <= 60
  {
    var points :=
      if segment == 0 then 0
      else if segment == 25 then (if multiplier == 1 then 25 else 50)
      else segment * multiplier;
    Throw(dartNumber, segment, multiplier, points, false, false)
  }

  /** A throw row as the engine leaves it: inside the domains, scored by the rule, never a checkout. */
  predicate ValidThrow(t: Throw) {
    && ValidDartNumber(t.dartNumber)
    && ValidSegment(t.segment)
    && ValidMultiplier(t.multiplier)
    && t.points == CreateForTurn(t.dartNumber, t.segment, t.multiplier).points
    && !t.isCheckout
  }

  /** Some throw of the turn already carries dart number `n` (the duplicate-dart query). */
  predicate HasDartNumber(throws: seq<Throw>, n: int) {
    exists i :: 0 <= i < |throws| && throws[i].dartNumber == n
  }

  /**
   * `Throw.get_last_throw_for_turn`: the turn's throw with the greatest dart number,
   * or `None` for a turn without throws. (Dart numbers are distinct within a turn,
   * so the choice among equal numbers never arises; the later row is taken.)
   */
  function LastThrowForTurn(throws: seq<Throw>): (r: Option<nat>)
    ensures r.None? <==> |throws| == 0
    ensures r.Some? ==> r.value < |throws|
    ensures r.Some? ==> forall i :: 0 <= i < |throws| ==> throws[i].dartNumber <= throws[r.value].dartNumber
    decreases |throws|
  {
    if |throws| == 0 then None
    else
      var n := |throws| - 1;
      match LastThrowForTurn(throws[..n])
      case None => Some(n)
      case Some(j) => if throws[j].dartNumber <= throws[n].dartNumber then Some(n) else Some(j)
  }
}

=== FILE: turn_model.dfy ===
/**
 * The `turns` table (app/models/turn.py): one player's visit to the board within a leg.
 * Turns are values held, in insertion order, by their leg; `leg_id` is implicit.
 */
module TurnModel {
  import opened Wrappers
  import opened ThrowModel

  datatype Turn = Turn(
    playerId: int,
    turnNumber: int,
    score: int,
    remainingScore: int,
    dartsThrown: int,
    isBust: bool,
    isCheckout: bool,
    throws: seq<Throw>)   // the `throws` relationship, in insertion order

  /**
   * `Turn.__init__`: the non-null columns are ordinary arguments; a missing
   * `score` or `darts_thrown` becomes 0 and a missing flag becomes `False`.
   */
  function NewTurn(playerId: int, turnNumber: int, remainingScore: int,
                   score: Option<int>, dartsThrown: Option<int>,
                   isBust: Option<bool>, isCheckout: Option<bool>): (t: Turn)
    ensures t.playerId == playerId && t.turnNumber == turnNumber && t.remainingScore == remainingScore
    ensures t.throws == []
    ensures score.None? ==> t.score == 0
    ensures dartsThrown.None? ==> t.dartsThrown == 0
    ensures isBust.None? ==> !t.isBust
    ensures isCheckout.None? ==> !t.isCheckout
    ensures score.Some? ==> t.score == score.value
    ensures dartsThrown.Some? ==> t.dartsThrown == dartsThrown.value
    ensures isBust.Some? ==> t.isBust == isBust.value
    ensures isCheckout.Some? ==> t.isCheckout == isCheckout.value
  {
    Turn(playerId, turnNumber, score.GetOr(0), remainingScore, dartsThrown.GetOr(0),
         isBust.GetOr(false), isCheckout.GetOr(false), [])
  }

  /** `Turn.create_for_leg`: the four required columns as given, the constructor defaults for the rest. */
  function CreateForLeg(playerId: int, turnNumber: int, remainingScore: int): (t: Turn)
    ensures t == Turn(playerId, turnNumber, 0, remainingScore, 0, false, false, [])
  {
    NewTurn(playerId, turnNumber, remainingScore, None, None, None, None)
  }

  /** The filter of `get_last_turn_for_leg`: fewer than three darts, whatever the flags say. */
  predicate Unfinished(t: Turn) { t.dartsThrown < 3 }

  /**
   * The index of the turn with the highest turn number, among all turns (`onlyUnfinished`
   * false) or among unfinished ones; `None` when no turn qualifies. Turn numbers are
   * distinct in a well-formed leg; among equal numbers the later row is taken.
   */
  function Highest(turns: seq<Turn>, onlyUnfinished: bool): (r: Option<nat>)
    ensures r.None? <==> forall j :: 0 <= j < |turns| ==> onlyUnfinished && !Unfinished(turns[j])
    ensures r.Some? ==> r.value < |turns| && (onlyUnfinished ==> Unfinished(turns[r.value]))
    ensures r.Some? ==> forall j :: 0 <= j < |turns| && (onlyUnfinished ==> Unfinished(turns[j])) ==>
                          turns[j].turnNumber <= turns[r.value].turnNumber
    decreases |turns|
  {
    if |turns| == 0 then None
    else
      var n := |turns| - 1;
      var best := Highest(turns[..n], onlyUnfinished);
      if onlyUnfinished && !Unfinished(turns[n]) then best
      else match best
        case None => Some(n)
        case Some(j) => if turns[j].turnNumber <= turns[n].turnNumber then Some(n) else Some(j)
  }

  /**
   * `Turn.get_last_turn_for_leg` (the second, identical definition is the one in force):
   * the unfinished turn with the highest turn number, ignoring the bust and checkout flags.
   */
  function LastTurnForLeg(turns: seq<Turn>): (r: Option<nat>)
    ensures r.None? <==> forall j :: 0 <= j < |turns| ==> !Unfinished(turns[j])
    ensures r.Some? ==> r.value < |turns| && Unfinished(turns[r.value])
    ensures r.Some? ==> forall j :: 0 <= j < |turns| && Unfinished(turns[j]) ==>
                          turns[j].turnNumber <= turns[r.value].turnNumber
  {
    Highest(turns, true)
  }

  /** `Turn.get_next_turn_number`: 1 for a leg without turns, else the highest turn number plus one. */
  function NextTurnNumber(turns: seq<Turn>): (n: int)
    ensures |turns| == 0 ==> n == 1
    ensures forall j :: 0 <= j < |turns| ==> turns[j].turnNumber < n
    ensures |turns| > 0 ==> exists j :: 0 <= j < |turns| && turns[j].turnNumber == n - 1
  {
    match Highest(turns, false)
    case None => 1
    case Some(k) => turns[k].turnNumber + 1
  }

  /** Distinct dart numbers within one turn: the guard against duplicate darts keeps this. */
  predicate DistinctDarts(throws: seq<Throw>) {
    forall i, j :: 0 <= i < j < |throws| ==> throws[i].dartNumber != throws[j].dartNumber
  }

  /**
   * A turn as the engine leaves it: the dart counter equals the number of throw rows,
   * there are one to three of them, each valid and with its own dart number, and the
   * turn is never marked as a checkout.
   */
  predicate WellFormedTurn(t: Turn) {
    && t.dartsThrown == |t.throws|
    && 1 <= |t.throws| <= 3
    && (forall i :: 0 <= i < |t.throws| ==> ValidThrow(t.throws[i]))
    && DistinctDarts(t.throws)
    && !t.isCheckout
  }

  /** The turns of a leg as the engine leaves them: well-formed, with strictly increasing positive turn numbers. */
  predicate WellFormed(turns: seq<Turn>) {
    && (forall i :: 0 <= i < |turns| ==> WellFormedTurn(turns[i]) && turns[i].turnNumber >= 1)
    && (forall i, j :: 0 <= i < j < |turns| ==> turns[i].turnNumber < turns[j].turnNumber)
  }

  /**
   * In a well-formed leg the turn found by the lookup is the LAST unfinished turn in
   * insertion order: ordering by turn number and by position agree.
   */
  lemma LastTurnIsLastUnfinished(turns: seq<Turn>)
    requires WellFormed(turns)
    ensures LastTurnForLeg(turns).Some? ==>
              forall j :: LastTurnForLeg(turns).value < j < |turns| ==> !Unfinished(turns[j])
  {
  }

  /** In a well-formed leg with turns, the highest-numbered turn is the last one. */
  lemma LatestTurnIsLast(turns: seq<Turn>)
    requires WellFormed(turns) && |turns| > 0
    ensures Highest(turns, false) == Some(|turns| - 1)
  {
  }
}

=== FILE: wrappers.dfy ===
/** Option and Result wrappers and small sequence helpers shared by the model. */
module Wrappers {

  /** A value that may be absent: a SQL `NULL`, a query's `.first()` that found nothing, a Python `None`. */
  datatype Option<+T> = None | Some(value: T) {
    function GetOr(default: T): T {
      match this
      case Some(v) => v
      case None => default
    }
  }

  /** The outcome of an operation that can raise: `Failure` is the exception. */
  datatype Result<+R, +E> = Success(value: R) | Failure(error: E)

  /** No element occurs twice. */
  predicate Distinct<T(==)>(s: seq<T>) {
    forall a, b :: 0 <= a < b < |s| ==> s[a] != s[b]
  }

  /** The sequence `s` without its element at position `i`: deleting one row from an ordered relation. */
  function RemoveAt<T>(s: seq<T>, i: nat): (r: seq<T>)
    requires i < |s|
    ensures |r| == |s| - 1
    ensures forall k :: 0 <= k < i ==> r[k] == s[k]
    ensures forall k :: i <= k < |r| ==> r[k] == s[k + 1]
  {
    s[..i] + s[i + 1..]
  }

  /** Position of the first occurrence of `x` in `s` (Python's `list.index`, which raises when `x` is absent). */
  function IndexOf<T(==)>(s: seq<T>, x: T): (r: Option<nat>)
    ensures r.None? <==> x !in s
    ensures r.Some? ==> r.value < |s| && s[r.value] == x && x !in s[..r.value]
  {
    if |s| == 0 then None
    else if s[0] == x then Some(0)
    else match IndexOf(s[1..], x)
      case None => None
      case Some(i) =>
        assert s[..i + 1] == [s[0]] + s[1..][..i];
        Some(i + 1)
  }
}
